=== FILE: README.md ===
# SmartPhasorToolBox persistence pipeline, in Dafny

This project models the part of SmartPhasorToolBox that carries
synchrophasor (PMU) measurements from the wire into TimescaleDB, and states
what it guarantees:

- **Ingestor** (`modules/ingestor/main.py`). It publishes each decoded data
  frame as a flat field map on the Redis stream `pmu_data_stream:<PMU_ID>`.
  The map holds six fixed keys, plus one key per phasor magnitude and angle,
  per analog value and per digital value. Digital values are normalised to
  0 or 1.
- **Persistor** (`modules/persistor/main.py`).
  - It discovers the PMU streams and makes sure each has the consumer group
    `persistor_group`.
  - It reads batches through that group and maps every entry to a 39-slot
    row in the column order of `phasor_data`.
  - It buffers the rows and bulk-inserts them once 500 are waiting.
  - It acknowledges (XACK) a batch only after its insert committed.
  - It flushes the residual buffer when a read times out, and once more on
    shutdown.
- **Status manager** (`status_manager.py`). Read-only health reports:
  - per ingestor: ONLINE / OFFLINE by the age of the stream's newest entry
    id, or "Stream Vazio" / ERRO;
  - per stream: the persistor group's lag, pending and consumer counters,
    or AGUARDANDO / SEM GRUPO / ERRO;
  - overall Redis health.

Every interaction with the outside world is an input of the model:

- Redis replies (KEYS, XGROUP CREATE, XREADGROUP, XREVRANGE, XINFO GROUPS),
  and whether Redis answers an XADD;
- whether a bulk insert commits;
- the persistor's clock, in integer milliseconds;
- the status manager's local clock: `datetime.now()` and what
  `datetime.fromtimestamp` makes of an entry id's milliseconds, if anything;
- the timestamp conversion (`datetime.fromtimestamp(float(ts))`);
- `math.degrees`;
- the way Redis returns a stored value.

The model keeps the source's quirks as they are:

- An entry without `ts` raises KeyError. This abandons the rest of its
  batch: nothing is flushed or acknowledged in that pass.
- A row whose timestamp does not convert is dropped, but its entry is still
  queued for acknowledgement.
- `acks_to_send` is replaced by every batch. Entries of a batch that did not
  fill the buffer are committed later but never acknowledged.
- A flush after a read timeout never acknowledges.
- Any group-creation error other than "name already exists" empties the
  whole discovery result. A stream whose name does not end in an integer is
  still listened to.

Two behaviours look unintended, and the model keeps both as written:

- **Group-creation failure.** One stream whose group cannot be created
  stops the discovery of all the others. The per-stream loop re-raises the
  error (modules/persistor/main.py:136-140), and the outer handler
  (lines 156-158) returns an empty result, so no stream is read until the
  next discovery (`Discovery.Discover`).
- **Dropped rows.** An entry whose row is dropped (its `ts` does not
  convert) is still queued for acknowledgement (lines 213-219). It is
  acknowledged only when its batch is the one that fills the buffer and
  commits (lines 222-226); otherwise it stays pending (`Persistor.Batch`).

The central guarantee is `Persistor.RunKeepsAckSafe`, and
`Persistor.StartedRunKeepsAckSafe` applies it to the persistor as launched.
Over any sequence of loop passes, including the final shutdown flush, every
entry Redis has been told to forget formats to a row, and that row, if it
has a time, is in the table.

Files:

| file | contents |
|---|---|
| `wrappers.dfy` | `Option` and `Result` |
| `text.dfy` | decimal text and `int()`, `split`/`join` and their round trips |
| `fields.dfy` | field values and flat field maps |
| `schema.dfy` | `TABLE_COLUMNS`, key names, `SQL_INSERT_QUERY` |
| `row_mapper.dfy` | `format_row_from_redis` |
| `discovery.dfy` | `discover_and_setup_groups` |
| `persistor.dfy` | flush, batch, loop pass, shutdown, the acknowledgement guarantee |
| `status.dfy` | `StatusManager` |
| `ingestor.dfy` | `STREAM_KEY` and the `phasor_frame` builder |
| `endtoend.dfy` | properties that span the ingestor and the persistor |

## Model

| member | source | states |
|---|---|---|
| Text.IntDecimalRoundTrip | modules/persistor/main.py:144 | `int()` applied to the decimal text of any integer, negative included, gives the integer back |
| Text.Split | modules/persistor/main.py:144 | `str.split(c)` gives at least one part, no part contains the separator, and joining the parts with it gives the string back |
| Text.SplitOfJoin | modules/persistor/main.py:144 | splitting the join of separator-free parts gives exactly those parts back |
| Text.LastSegmentAfter | modules/persistor/main.py:144 | `split(':')[-1]` of a name ending in `:` followed by a colon-free tail is that tail |
| Text.CommaSpaceJoinSplits | modules/persistor/main.py:60 | names without commas or leading spaces, joined with `', '`, split on `,` and trimmed, come back unchanged and in order |
| Schema.KeyNameInjective | modules/ingestor/main.py:104-114 | distinct well-formed keys are written under distinct names, so no frame key overwrites another |
| Schema.TableColumnsLayout | modules/persistor/main.py:47-58 | the list has 39 entries, and entry k is the name of the key for position k: 5 fixed columns, then magnitude and angle of phasors 0-11, then analog 0-7, then digital 0-1 |
| Schema.ColumnKeyOfColumn | modules/persistor/main.py:47-58 | the position a key is assigned holds that very key |
| Schema.ColumnOfFindsColumn | modules/persistor/main.py:47-58 | a key with a column is named at that column; a key without one (phasor 12 or above, analog 8 or above, digital 2 or above) names no column at all |
| Schema.TableColumnsDistinct | modules/persistor/main.py:47-58 | no column name occurs twice |
| Schema.InsertQueryColumns | modules/persistor/main.py:60 | the INSERT statement's column list is exactly `TABLE_COLUMNS`, in order, between `INSERT INTO phasor_data (` and `) VALUES %s` |
| RowMapper.FormatRow | modules/persistor/main.py:63-80 | no `ts` is the only error; otherwise the row has 39 slots; slot 0 is set exactly when `ts` converts, and then holds the converted time; every other slot holds the value of its column's field, or None exactly when that field is absent |
| RowMapper.FormatRowDependsOnColumnsOnly | modules/persistor/main.py:79 | two entries that agree on `ts` and on every column field map to the same row |
| RowMapper.ExtraFieldIgnored | modules/persistor/main.py:79 | adding or changing a field that is not a column (such as `ts_iso` or `phasor_12_mag`), or the `time` field, leaves the row unchanged |
| RowMapper.FieldLandsInItsColumn | modules/persistor/main.py:79 | the field of a key that has a column is what that column's slot holds |
| Discovery.FirstFailure | modules/persistor/main.py:130-140 | the index of the first stream whose group creation fails with an error other than "already exists", or the number of streams |
| Discovery.SetupGroups | modules/persistor/main.py:130-154 | the loop completes exactly when no group creation fails; it then listens to every name from `'>'`; the PMUs registered are those of the names before the first failure, in order |
| Discovery.Discover | modules/persistor/main.py:117-158 | the result is non-empty exactly when KEYS succeeded with some names and no group creation failed; it then maps every name, parsable or not, to `'>'`; a failed KEYS registers nothing |
| Persistor.Flatten | modules/persistor/main.py:209-210 | every delivery comes from some stream of the reply and is one of that stream's messages |
| Persistor.FlattenDeliversAll | modules/persistor/main.py:209-210 | every message of every stream in the reply is delivered |
| Persistor.Handled | modules/persistor/main.py:212 | the entries handled before KeyError all have `ts`, and the one that stops the batch does not |
| Persistor.QueueAck | modules/persistor/main.py:217-219 | the id is appended to its stream's list, created on first use, and every other stream's list is unchanged |
| Persistor.CollectBuffers | modules/persistor/main.py:209-214 | the buffer after the inner loops is the old buffer followed by the rows with a time of the handled entries, in delivery order |
| Persistor.CollectQueues | modules/persistor/main.py:209-219 | each stream's queue after the inner loops is its old queue followed by the ids handled from that stream, in delivery order |
| Persistor.Flush | modules/persistor/main.py:83-114 | buffered plus committed rows are conserved; an empty buffer succeeds and changes nothing; a success commits the whole buffer in order and empties it; a failure changes nothing; acknowledgements are never touched |
| Persistor.FlushRetryCommitsOnce | modules/persistor/main.py:109-114 | a failed flush followed by a successful one commits exactly what one success would, and a second success adds nothing |
| Persistor.Absorb | modules/persistor/main.py:208-219 | a batch starts a fresh acknowledgement queue holding, per stream, exactly the handled ids, and appends the handled rows that have a time; nothing is committed or acknowledged |
| Persistor.Batch | modules/persistor/main.py:208-228 | no row is lost or duplicated; a failed commit commits nothing; entries are acknowledged only when the whole batch was handled, the buffer reached 500 and the commit succeeded, and then the buffer is empty and exactly the queued entries are added to the acknowledged set; a batch that does not acknowledge commits nothing, so there is no flush below 500 rows or after a KeyError |
| Persistor.BatchAcksItsEntries | modules/persistor/main.py:222-226 | an acknowledging batch acknowledges exactly the entries it delivered and nothing from an earlier batch |
| Persistor.IdsFromMember | modules/persistor/main.py:217-219 | an id is queued for a stream exactly when a delivery from that stream carries it |
| Persistor.QueueCoversBatch | modules/persistor/main.py:225-226 | the XACK calls name exactly the entries of the batch |
| Persistor.TimedRowsMember | modules/persistor/main.py:212-214 | every delivered entry whose row has a time contributes that row to the buffer |
| Persistor.Step | modules/persistor/main.py:193-228 | a timeout flushes without acknowledging anything: a committing flush moves the whole buffer into the table, a failing one changes nothing; a reply is handled as one batch; committed rows only grow, and not at all when the commit fails |
| Persistor.BatchKeepsAckSafe | modules/persistor/main.py:222-228 | if every acknowledged entry was persisted before a batch, that still holds after it |
| Persistor.Shutdown | modules/persistor/main.py:237-239 | the last flush conserves rows, acknowledges nothing, and commits the whole residual buffer when the commit succeeds |
| Persistor.Rediscover | modules/persistor/main.py:181-184 | once more than 30 s have passed, the streams are replaced by a fresh discovery's and the clock is reset; otherwise nothing changes; the pipeline is never touched |
| Persistor.Cycle | modules/persistor/main.py:179-235 | the streams, registrations and discovery clock are those of the due-or-not rediscovery, so the clock is reset exactly when a discovery ran; with no stream to listen to, or a failed read, the pipeline is unchanged; with a stream and a reply, the pipeline becomes the step for that reply |
| Persistor.CycleKeepsAckSafe | modules/persistor/main.py:179-235 | one pass of the loop keeps every acknowledged entry persisted |
| Persistor.Run | modules/persistor/main.py:179-235 | registrations only accumulate, and the last discovery time is either the starting one or the time of some pass |
| Persistor.RunSnoc | modules/persistor/main.py:179-235 | running one more pass is the run so far followed by that pass, so every pass is applied, in order |
| Persistor.RunKeepsAckSafe | modules/persistor/main.py:179-239 | over any sequence of passes and the shutdown flush, every entry ever acknowledged formats to a row that, if it has a time, is committed |
| Persistor.StartedRunKeepsAckSafe | modules/persistor/main.py:176-239 | from the startup discovery on, through any passes and the shutdown flush, only entries whose rows are committed are ever acknowledged, given only that reads return entries as written |
| Status.EntryMsOfId | status_manager.py:96-97 | the integer before the first `-` of an id `"<ms>-<seq>"` is `ms` |
| Status.IngestorEntry | status_manager.py:86-110 | an empty stream, and only an empty stream, gives "Stream Vazio"; a failed read, an unparsable id, or milliseconds `fromtimestamp` rejects give ERRO under the full stream name; otherwise the report is filed under the last `:`-segment, carries the id's local time, and is ONLINE exactly when the local clock is less than 60 s past it |
| Status.OnlineIffRecent | status_manager.py:95-110 | for a real entry id, the report is ERRO under the full stream name when its milliseconds cannot be converted; otherwise it is ONLINE with their local time when the local clock is under 60 s past it, and OFFLINE otherwise |
| Status.FixedZoneOnlineIffRecent | status_manager.py:95-110 | in a zone with a fixed UTC offset, an entry is ONLINE exactly when it is under 60 s old, and an id whose local time falls past the year 9999 gives ERRO under the full stream name |
| Status.SpringForwardReportsOffline | status_manager.py:98-106 | in a zone that moves its clocks an hour forward, an entry written before the change and read after it, less than 60 s later, is reported OFFLINE: the naive local-time subtraction adds the hour |
| Status.Gather | status_manager.py:85-110 | the keys of the status dictionary are exactly the keys the streams file under |
| Status.GatherLastWins | status_manager.py:85-110 | a stream's report is in the dictionary when no later stream files under the same key |
| Status.AllIngestorsStatus | status_manager.py:70-116 | no client gives `{}`; no streams gives the single summary entry; a failed KEYS gives ERRO; otherwise there is one key per stream's filing key |
| Status.FailureDoesNotStopOthers | status_manager.py:108-110 | a stream's report is kept whatever other streams did, failures included |
| Status.FindGroup | status_manager.py:140-149 | the index of the first group named `persistor_group`, or the number of groups |
| Status.GroupEntry | status_manager.py:138-157 | MONITORADO exactly when some group is `persistor_group`, with the first such group's lag, pending and consumers; AGUARDANDO exactly when none is; SEM GRUPO exactly on ResponseError; ERRO exactly on another error |
| Status.PersistorStatus | status_manager.py:118-163 | no client gives `{}`; no streams gives the single summary entry; a failed KEYS gives ERRO; otherwise every stream is filed under its full name with its own group report |
| Status.GatherOwnKey | status_manager.py:135-157 | when every stream files under its own name, each entry is that stream's group report |
| Status.SystemHealth | status_manager.py:48-68 | health is DOWN exactly without a client, the dictionary then being `{"redis_status": "DOWN", "persistor_status": "UNKNOWN"}` with no report; otherwise UP with both reports |
| Ingestor.StreamKey | modules/ingestor/main.py:60 | the key is `pmu_data_stream:` followed by the decimal PMU id |
| Ingestor.Overwrite | modules/ingestor/main.py:105 | assigning a key of the frame changes what that key reads and nothing else |
| Ingestor.FixedPart | modules/ingestor/main.py:94-101 | the six fixed keys hold the timestamp, its ISO text, the PMU id, the status word, the frequency and the ROCOF, and no other key is present |
| Ingestor.AddPhasor | modules/ingestor/main.py:104-106 | one iteration adds exactly phasor i's magnitude and its angle in degrees |
| Ingestor.AddAnalog | modules/ingestor/main.py:109-110 | one iteration adds exactly analog value i |
| Ingestor.AddDigital | modules/ingestor/main.py:113-114 | one iteration adds exactly digital value i, as 1 when truthy and 0 otherwise |
| Ingestor.PutPhasors | modules/ingestor/main.py:104-106 | the frame gains a magnitude and an angle for every phasor and nothing else |
| Ingestor.PutAnalogs | modules/ingestor/main.py:109-110 | the frame gains an entry for every analog value and nothing else |
| Ingestor.PutDigitals | modules/ingestor/main.py:113-114 | the frame gains a 0-or-1 entry for every digital value and nothing else |
| Ingestor.BuildFrame | modules/ingestor/main.py:94-114 | under every key name the frame holds exactly what the decoded message gives for that key, and it holds no other names |
| Ingestor.BuiltFrameShape | modules/ingestor/main.py:94-114 | the six fixed keys are present; every phasor has a magnitude and an angle key; every analog and digital value has its key; every digital value is 0 or 1; there is no phasor key beyond the message's phasors |
| Ingestor.BuiltFrameSendable | modules/ingestor/main.py:94-122 | every value of a built frame is one XADD can send exactly when the frequency, the ROCOF, every phasor magnitude and every analog value are |
| Ingestor.HandleFrame | modules/ingestor/main.py:85-129 | a frame is published exactly when it is a data frame, Redis answers and its copied values are sendable, and then it is the built frame; otherwise the frame is dropped |
| EndToEnd.StreamKeyRoundTrip | modules/persistor/main.py:144 | the persistor's `int(name.split(':')[-1])` recovers the PMU id from the ingestor's stream key |
| EndToEnd.PmuIdsMember | modules/persistor/main.py:143-145 | a stream whose name ends in an integer has that id registered |
| EndToEnd.IngestorIsDiscovered | modules/persistor/main.py:130-151 | a discovery that lists an ingestor's stream, with no group creation failing, listens to it from `'>'` and registers its PMU |
| EndToEnd.ChannelLands | modules/persistor/main.py:79 | a published channel that has a column lands in that column's slot |
| EndToEnd.FrameHeaderReachesRow | modules/persistor/main.py:73-79 | a published frame always maps to a row; its time slot is set exactly when the published `ts` converts; its `pmu_id` slot holds the frame's PMU id |
| EndToEnd.PhasorsReachRow | modules/persistor/main.py:47-58 | each of the first 12 phasors lands in its magnitude and angle columns |
| EndToEnd.AnalogsReachRow | modules/persistor/main.py:47-58 | each of the first 8 analog values lands in its column |
| EndToEnd.DigitalsReachRow | modules/persistor/main.py:47-58 | each of the first 2 digital values lands in its column as 0 or 1 |
| EndToEnd.OverflowChannelDropped | modules/persistor/main.py:79 | a channel beyond the table's width leaves no trace in the row, whatever it holds |

## Left out

- Redis, PostgreSQL and the clock are not modelled as services. Their
  answers are inputs: the KEYS, XGROUP CREATE, XREADGROUP, XREVRANGE and
  XINFO GROUPS replies, whether a bulk insert commits, and the time in
  integer milliseconds.
- The constants that only shape Redis calls are not kept: the consumer name
  `persistor_consumer_1`, the 2 s BLOCK of XREADGROUP and the KEYS pattern
  `pmu_data_stream:*`. A read's outcome, a timeout (an empty reply) and the
  KEYS answer are inputs.
- XADD's approximate `maxlen=100000` trim is out. Entries the trim removes
  before they are read are not modelled; the constant is kept as
  `Ingestor.MaxStreamLength`.
- XACK failing partway through the acknowledgement loop (lines 225-226) is
  out. `Persistor.Batch` treats the acknowledgement of a committed batch as
  atomic.
- `register_pmu` (modules/persistor/database.py:139-163) is modelled only as
  the sequence of ids handed to it. It catches every exception itself, so it
  never interrupts discovery, and treating it as never failing is exact for
  discovery. Its database write is out. As written, that write never happens:
  line 156 uses `datetime`, which database.py does not import, and the
  resulting NameError is caught and logged at lines 160-161.
- Persistor.Cycle: the clock is read once per pass, whereas lines 182 and
  184 read it twice. The 10 s, 5 s and 1 s sleeps are out, and so is the
  logging.
- Persistor.Cycle: an exception other than KeyError raised inside the batch
  (from the database connection, for instance) is modelled only through the
  commit outcome.
- Floating point is out. The timestamp conversion is an abstract
  `TimestampParser`, so `OverflowError` from `fromtimestamp` (not caught at
  line 75) is not distinguished from a successful conversion. `math.degrees`
  is an abstract `Degrees`.
- EndToEnd.Transport stands for Redis storing a published frame and handing
  it back: the same keys, each value turned into `encode` of it. How Redis
  stringifies values is not modelled, so `encode` is a parameter.
- Status.IngestorEntry compares the age in integer milliseconds, not in
  float seconds with microsecond `datetime`s. The local clock's conversion
  is an input, so a zone's rules and the exact float rounding of
  `fromtimestamp` at the year-9999 limit are not modelled.
- Status.GroupEntry copies `lag` through as an optional value. It does not
  model the KeyError that servers older than Redis 7 raise when there is no
  `lag` field.
- The exception texts in the `details` fields are abstracted as `Detail`.
- Status.SystemHealth: the status functions read one snapshot of Redis,
  whereas `get_system_health` issues KEYS twice and could see two
  different answers.
- Text.ParseInt accepts an optional `-` or `+` sign and ASCII digits. Python's `int()`
  also accepts surrounding whitespace, underscores between digits and
  non-ASCII digits.
- Persistor.Flatten: its contract and Persistor.FlattenDeliversAll state
  that the deliveries are exactly the reply's messages, not that they follow
  the reply's order (that order is its definition).
- The signal handler, the `running` flag and process startup are out.
  `setup_database`, the FastAPI routes in `main.py`, the phasortoolbox
  decoder and the asyncio streaming loop are out too: they are
  infrastructure around the core, or third-party code.

=== FILE: discovery.dfy ===
/**
 * `discover_and_setup_groups`: list the PMU streams, make sure each has the
 * persistor's consumer group, register its PMU id, and listen to all of them
 * from "new entries only" (`'>'`). The Redis replies are inputs.
 */
module Discovery {
  import opened Wrappers
  import opened Text

  /** The consumer group the persistor reads through and the status manager reports on. */
  const PersistorGroupName: string := "persistor_group"
  /** The read position meaning "entries never delivered to this group". */
  const NewEntriesOnly: string := ">"

  /** What `XGROUP CREATE` answered for one stream. */
  datatype GroupCreate =
    | Created
    | AlreadyExists   // ResponseError whose text contains "name already exists"
    | CreateFailed    // any other error: re-raised, caught by the outer handler

  /** The streams to listen to, and the PMU ids handed to `register_pmu` on the way. */
  datatype Discovered = Discovered(streams: map<string, string>, registered: seq<int>)

  /** `int(stream_name.split(':')[-1])`, None when it raises ValueError. */
  function PmuIdOf(name: string): Option<int> {
    ParseInt(LastSegment(name, ':'))
  }

  /** Index of the first stream whose group creation fails, or `|names|`. */
  function FirstFailure(names: seq<string>, createGroup: string -> GroupCreate): (k: nat)
    ensures k <= |names|
    ensures forall i :: 0 <= i < k ==> createGroup(names[i]) != CreateFailed
    ensures k < |names| ==> createGroup(names[k]) == CreateFailed
  {
    if |names| == 0 then 0
    else if createGroup(names[0]) == CreateFailed then 0
    else 1 + FirstFailure(names[1..], createGroup)
  }

  /** The id a stream name registers: none when it does not end in an integer. */
  function OwnId(name: string): seq<int> {
    match PmuIdOf(name) case Some(id) => [id] case None => []
  }

  /** The ids of those names that end in an integer, in order. */
  function PmuIds(names: seq<string>): seq<int> {
    if |names| == 0 then []
    else OwnId(names[0]) + PmuIds(names[1..])
  }

  datatype Setup = Setup(streams: Option<map<string, string>>, registered: seq<int>)

  /**
   * The loop over the stream names: on a failing group creation the loop is
   * abandoned (None), keeping the registrations already made.
   */
  function SetupGroups(names: seq<string>, createGroup: string -> GroupCreate): (r: Setup)
    ensures r.streams.Some? <==> FirstFailure(names, createGroup) == |names|
    ensures r.streams.Some? ==> r.streams.value.Keys == set i | 0 <= i < |names| :: names[i]
    ensures r.streams.Some? ==> forall n :: n in r.streams.value ==> r.streams.value[n] == NewEntriesOnly
    ensures r.registered == PmuIds(names[..FirstFailure(names, createGroup)])
  {
    if |names| == 0 then Setup(Some(map[]), [])
    else if createGroup(names[0]) == CreateFailed then Setup(None, [])
    else
      var rest := SetupGroups(names[1..], createGroup);
      SetupStep(names, createGroup);
      NamesStep(names);
      Setup(match rest.streams case Some(m) => Some(m[names[0] := NewEntriesOnly]) case None => None,
            OwnId(names[0]) + rest.registered)
  }

  /** Past a stream whose group exists, the registered prefix is that stream's id, if any, then the rest's. */
  lemma SetupStep(names: seq<string>, createGroup: string -> GroupCreate)
    requires 0 < |names| && createGroup(names[0]) != CreateFailed
    ensures PmuIds(names[..FirstFailure(names, createGroup)])
      == OwnId(names[0]) + PmuIds(names[1..][..FirstFailure(names[1..], createGroup)])
  {
    var k := FirstFailure(names, createGroup);
    assert k == 1 + FirstFailure(names[1..], createGroup);
    var pre := names[..k];
    assert pre[1..] == names[1..][..k - 1];
  }

  /** The names of a non-empty list are its first name and the names of the rest. */
  lemma NamesStep(names: seq<string>)
    requires 0 < |names|
    ensures (set i | 0 <= i < |names| :: names[i]) == {names[0]} + set i | 0 <= i < |names[1..]| :: names[1..][i]
  {
    forall i | 0 < i < |names| ensures names[i] in set j | 0 <= j < |names[1..]| :: names[1..][j] {
      assert names[1..][i - 1] == names[i];
    }
  }

  /**
   * One discovery. `keys` is the reply to `KEYS pmu_data_stream:*` (None when
   * it raised); `createGroup` gives the reply to `XGROUP CREATE` per stream.
   * Every listed stream is listened to, even one whose id does not parse,
   * unless a group creation fails, which empties the whole result.
   */
  function Discover(keys: Option<seq<string>>, createGroup: string -> GroupCreate): (r: Discovered)
    ensures r.streams != map[] <==>
      keys.Some? && 0 < |keys.value| && FirstFailure(keys.value, createGroup) == |keys.value|
    ensures r.streams != map[] ==> r.streams.Keys == set i | 0 <= i < |keys.value| :: keys.value[i]
    ensures forall n :: n in r.streams ==> r.streams[n] == NewEntriesOnly
    ensures keys.Some? ==> r.registered == PmuIds(keys.value[..FirstFailure(keys.value, createGroup)])
    ensures keys.None? ==> r.registered == []
  {
    match keys
    case None => Discovered(map[], [])
    case Some(names) =>
      if |names| == 0 then Discovered(map[], [])
      else
        var s := SetupGroups(names, createGroup);
        assert s.streams.Some? ==> names[0] in s.streams.value;
        Discovered(if s.streams.Some? then s.streams.value else map[], s.registered)
  }
}

=== FILE: endtoend.dfy ===
/**
 * What holds across the two ends of a stream: the key an ingestor publishes
 * under is one the persistor discovers and parses back to the same PMU id,
 * and every channel of a published frame that the table has a column for
 * lands in that column of the row the persistor builds.
 */
module EndToEnd {
  import opened Wrappers
  import opened Text
  import opened Fields
  import opened Schema
  import opened RowMapper
  import opened Discovery
  import opened Ingestor

  /** The persistor's `int(stream_name.split(':')[-1])` recovers the id the ingestor put in the key. */
  lemma StreamKeyRoundTrip(pmuId: int)
    ensures PmuIdOf(StreamKey(pmuId)) == Some(pmuId)
  {
    var digits := IntToDecimal(pmuId);
    assert forall k :: 0 <= k < |digits| ==> digits[k] != ':';
    assert StreamKey(pmuId) == "pmu_data_stream" + [':'] + digits;
    LastSegmentAfter("pmu_data_stream", ':', digits);
    IntDecimalRoundTrip(pmuId);
  }

  /** A stream whose name parses contributes its id to the ids handed to `register_pmu`. */
  lemma {:induction false} PmuIdsMember(names: seq<string>, j: nat)
    requires j < |names| && PmuIdOf(names[j]).Some?
    ensures PmuIdOf(names[j]).value in PmuIds(names)
    decreases |names|
  {
    if 0 < j {
      PmuIdsMember(names[1..], j - 1);
    }
  }

  /**
   * A discovery that sees an ingestor's stream and creates every group
   * listens to that stream from new entries on and registers its PMU.
   */
  lemma IngestorIsDiscovered(names: seq<string>, createGroup: string -> GroupCreate, pmuId: int, j: nat)
    requires j < |names| && names[j] == StreamKey(pmuId)
    requires forall i :: 0 <= i < |names| ==> createGroup(names[i]) != CreateFailed
    ensures StreamKey(pmuId) in Discover(Some(names), createGroup).streams
    ensures Discover(Some(names), createGroup).streams[StreamKey(pmuId)] == NewEntriesOnly
    ensures pmuId in Discover(Some(names), createGroup).registered
  {
    var k := FirstFailure(names, createGroup);
    assert k == |names|;
    assert names[..k] == names;
    StreamKeyRoundTrip(pmuId);
    PmuIdsMember(names, j);
  }

  /**
   * The field map the persistor reads back: Redis stores every value of
   * the published map, and `encode` is what a value reads back as.
   */
  function Transport(m: FieldMap, encode: Value -> Value): (t: FieldMap)
    ensures t.Keys == m.Keys
    ensures forall k :: k in m ==> t[k] == encode(m[k])
  {
    map k | k in m :: encode(m[k])
  }

  /** A published channel that has a column is stored in it. */
  lemma ChannelLands(m: FieldMap, source: int, f: DataFrame, degrees: Degrees, encode: Value -> Value, parse: TimestampParser,
                     row: Row, key: Key, v: Value)
    requires Builds(m, source, f, degrees, |f.phasors|, |f.analog|, |f.digital|)
    requires FormatRow(Transport(m, encode), parse) == Success(row)
    requires WellFormed(key) && ColumnOf(key).Some? && ColumnOf(key).value != 0
    requires Expected(source, f, degrees, |f.phasors|, |f.analog|, |f.digital|, key) == Some(v)
    ensures ColumnOf(key).value < |row| && row[ColumnOf(key).value] == Some(encode(v))
  {
    var t := Transport(m, encode);
    FieldLandsInItsColumn(t, key, parse);
    assert Lookup(m, KeyName(key)) == Some(v);
  }

  /** The fixed part of a frame: the time slot is set exactly when the timestamp parses, and the PMU id is kept. */
  lemma FrameHeaderReachesRow(m: FieldMap, source: int, f: DataFrame, degrees: Degrees, encode: Value -> Value, parse: TimestampParser)
    requires Builds(m, source, f, degrees, |f.phasors|, |f.analog|, |f.digital|)
    ensures FormatRow(Transport(m, encode), parse).Success?
    ensures FormatRow(Transport(m, encode), parse).value[0].Some? <==> parse(encode(VReal(f.timestamp.epochSeconds))).Some?
    ensures FormatRow(Transport(m, encode), parse).value[1] == Some(encode(VInt(source)))
  {
    assert WellFormed(Plain("ts")) && KeyName(Plain("ts")) == "ts";
    assert Lookup(m, "ts") == Some(VReal(f.timestamp.epochSeconds));
    var row := FormatRow(Transport(m, encode), parse).value;
    assert WellFormed(Plain("pmu_id")) && ColumnOf(Plain("pmu_id")) == Some(1);
    ChannelLands(m, source, f, degrees, encode, parse, row, Plain("pmu_id"), VInt(source));
  }

  /** Each of the first twelve phasors crosses the stream into its magnitude and angle columns. */
  lemma PhasorsReachRow(m: FieldMap, source: int, f: DataFrame, degrees: Degrees, encode: Value -> Value, parse: TimestampParser, row: Row)
    requires Builds(m, source, f, degrees, |f.phasors|, |f.analog|, |f.digital|)
    requires FormatRow(Transport(m, encode), parse) == Success(row)
    ensures forall i :: 0 <= i < |f.phasors| && i < PhasorSlots ==>
      row[5 + 2 * i] == Some(encode(f.phasors[i].mag)) && row[6 + 2 * i] == Some(encode(VReal(degrees(f.phasors[i].angleRad))))
  {
    forall i | 0 <= i < |f.phasors| && i < PhasorSlots
      ensures row[5 + 2 * i] == Some(encode(f.phasors[i].mag)) && row[6 + 2 * i] == Some(encode(VReal(degrees(f.phasors[i].angleRad))))
    {
      ChannelColumns(i);
      ChannelLands(m, source, f, degrees, encode, parse, row, PhasorMag(i), f.phasors[i].mag);
      ChannelLands(m, source, f, degrees, encode, parse, row, PhasorAng(i), VReal(degrees(f.phasors[i].angleRad)));
    }
  }

  /** Each of the first eight analog values lands in its column. */
  lemma AnalogsReachRow(m: FieldMap, source: int, f: DataFrame, degrees: Degrees, encode: Value -> Value, parse: TimestampParser, row: Row)
    requires Builds(m, source, f, degrees, |f.phasors|, |f.analog|, |f.digital|)
    requires FormatRow(Transport(m, encode), parse) == Success(row)
    ensures forall i :: 0 <= i < |f.analog| && i < AnalogSlots ==> row[29 + i] == Some(encode(f.analog[i]))
  {
    forall i | 0 <= i < |f.analog| && i < AnalogSlots
      ensures row[29 + i] == Some(encode(f.analog[i]))
    {
      ChannelColumns(i);
      ChannelLands(m, source, f, degrees, encode, parse, row, Analog(i), f.analog[i]);
    }
  }

  /** Each of the first two digital values lands in its column as the 0 or 1 the ingestor made of it. */
  lemma DigitalsReachRow(m: FieldMap, source: int, f: DataFrame, degrees: Degrees, encode: Value -> Value, parse: TimestampParser, row: Row)
    requires Builds(m, source, f, degrees, |f.phasors|, |f.analog|, |f.digital|)
    requires FormatRow(Transport(m, encode), parse) == Success(row)
    ensures forall i :: 0 <= i < |f.digital| && i < DigitalSlots ==>
      row[37 + i] == Some(encode(VInt(if Truthy(f.digital[i]) then 1 else 0)))
  {
    forall i | 0 <= i < |f.digital| && i < DigitalSlots
      ensures row[37 + i] == Some(encode(VInt(if Truthy(f.digital[i]) then 1 else 0)))
    {
      ChannelColumns(i);
      ChannelLands(m, source, f, degrees, encode, parse, row, Digital(i), VInt(if Truthy(f.digital[i]) then 1 else 0));
    }
  }

  /**
   * Channels beyond the table's width are dropped without a trace: the
   * row is the same whatever such a field holds, or whether it is there.
   */
  lemma OverflowChannelDropped(t: FieldMap, key: Key, v: Value, parse: TimestampParser)
    requires !key.Plain? && ColumnOf(key).None?
    ensures FormatRow(t[KeyName(key) := v], parse) == FormatRow(t, parse)
  {
    ColumnOfFindsColumn(key);
    assert KeyName(key)[0] != 't';
    ExtraFieldIgnored(t, KeyName(key), v, parse);
  }
}

=== FILE: fields.dfy ===
/**
 * Flat field maps: the Python dicts that travel through a Redis stream entry
 * (`phasor_frame` on the producer side, `msg_data` on the consumer side).
 */
module Fields {
  import opened Wrappers

  /**
   * A scalar field value. Floating-point numbers are carried as reals and
   * never computed with; `VTime` is a `datetime` given by its epoch seconds.
   */
  datatype Value =
    | VInt(i: int)
    | VReal(x: real)
    | VStr(s: string)
    | VBool(b: bool)
    | VTime(epochSeconds: real)

  type FieldMap = map<string, Value>

  /** Python's `d.get(key)`: the value, or None when the key is absent. */
  function Lookup(m: FieldMap, key: string): (r: Option<Value>)
    ensures r.Some? <==> key in m
    ensures r.Some? ==> r.value == m[key]
  {
    if key in m then Some(m[key]) else None
  }

  /** Python's `bool(v)`: zero, the empty string and False are falsy. */
  predicate Truthy(v: Value) {
    match v
    case VInt(i) => i != 0
    case VReal(x) => x != 0.0
    case VStr(s) => s != ""
    case VBool(b) => b
    case VTime(_) => true
  }
}

=== FILE: ingestor.dfy ===
/**
 * The ingestor's side of the stream (modules/ingestor/main.py): the key it
 * publishes under and the flat field map it builds from each decoded data
 * frame. The decoder, the clock conversions and `math.degrees` are inputs.
 */
module Ingestor {
  import opened Wrappers
  import opened Text
  import opened Fields
  import opened Schema

  const StreamKeyPrefix: string := "pmu_data_stream:"
  /** The approximate length cap passed to XADD. */
  const MaxStreamLength: nat := 100000

  /** Line 60: `f"pmu_data_stream:{PMU_ID}"`. */
  function StreamKey(pmuId: int): (key: string)
    ensures |StreamKeyPrefix| < |key|
    ensures key[..|StreamKeyPrefix|] == StreamKeyPrefix
    ensures key[|StreamKeyPrefix|..] == IntToDecimal(pmuId)
  {
    StreamKeyPrefix + IntToDecimal(pmuId)
  }

  /** `msg.timestamp`: its POSIX seconds (`timestamp()`) and its `isoformat()` text. */
  datatype Timestamp = Timestamp(epochSeconds: real, iso: string)

  /** One `(mag, ang_rad)` pair of `msg.phasors`. */
  datatype Phasor = Phasor(mag: Value, angleRad: real)

  /** The parts of a decoded data frame the ingestor reads. */
  datatype DataFrame = DataFrame(
    timestamp: Timestamp,
    statWord: int,
    frequency: Value,
    dfreq: Value,
    phasors: seq<Phasor>,
    analog: seq<Value>,
    digital: seq<Value>)

  /** What `pmu_client.stream()` yields, by `is_data_frame()` / `is_config_frame()`. */
  datatype Decoded = Data(frame: DataFrame) | ConfigFrame | OtherFrame

  /** `math.degrees`, which the model takes as given. */
  type Degrees = real -> real

  /** The six keys every published frame has (lines 94-101). */
  const FixedFrameKeys: set<string> := {"ts", "ts_iso", "pmu_id", "stat_word", "freq", "rocof"}

  /**
   * What a frame with `np` phasors, `na` analog and `nd` digital values
   * holds under a key: the reference the builder is checked against.
   */
  function Expected(source: int, f: DataFrame, degrees: Degrees, np: nat, na: nat, nd: nat, k: Key): Option<Value>
    requires np <= |f.phasors| && na <= |f.analog| && nd <= |f.digital|
  {
    match k
    case Plain(n) =>
      if n == "ts" then Some(VReal(f.timestamp.epochSeconds))
      else if n == "ts_iso" then Some(VStr(f.timestamp.iso))
      else if n == "pmu_id" then Some(VInt(source))
      else if n == "stat_word" then Some(VInt(f.statWord))
      else if n == "freq" then Some(f.frequency)
      else if n == "rocof" then Some(f.dfreq)
      else None
    case PhasorMag(i) => if i < np then Some(f.phasors[i].mag) else None
    case PhasorAng(i) => if i < np then Some(VReal(degrees(f.phasors[i].angleRad))) else None
    case Analog(i) => if i < na then Some(f.analog[i]) else None
    case Digital(i) => if i < nd then Some(VInt(if Truthy(f.digital[i]) then 1 else 0)) else None
  }

  /** The frame agrees with `Expected` under every key name, and holds no other names. */
  ghost predicate Builds(m: FieldMap, source: int, f: DataFrame, degrees: Degrees, np: nat, na: nat, nd: nat)
    requires np <= |f.phasors| && na <= |f.analog| && nd <= |f.digital|
  {
    && (forall k :: WellFormed(k) ==> Lookup(m, KeyName(k)) == Expected(source, f, degrees, np, na, nd, k))
    && (forall name :: name in m ==> exists k :: WellFormed(k) && KeyName(k) == name)
  }

  /** Writing `v` under the name of `key` changes the lookup of that key only. */
  lemma Overwrite(m: FieldMap, key: Key, v: Value)
    requires WellFormed(key)
    ensures forall k :: WellFormed(k) ==> Lookup(m[KeyName(key) := v], KeyName(k)) == (if k == key then Some(v) else Lookup(m, KeyName(k)))
  {
    forall k | WellFormed(k)
      ensures Lookup(m[KeyName(key) := v], KeyName(k)) == (if k == key then Some(v) else Lookup(m, KeyName(k)))
    {
      KeyNameInjective(k, key);
    }
  }

  /** Lines 94-101: the six fixed keys of every frame. */
  function Header(source: int, f: DataFrame): map<string, Value> {
    map["ts" := VReal(f.timestamp.epochSeconds), "ts_iso" := VStr(f.timestamp.iso),
      "pmu_id" := VInt(source), "stat_word" := VInt(f.statWord), "freq" := f.frequency, "rocof" := f.dfreq]
  }

  /** The six fixed keys make a frame with no channels yet. */
  lemma FixedPart(source: int, f: DataFrame, degrees: Degrees)
    ensures Builds(Header(source, f), source, f, degrees, 0, 0, 0)
  {
    var m := Header(source, f);
    assert forall n :: n in m ==> WellFormed(Plain(n)) && KeyName(Plain(n)) == n;
    forall k | WellFormed(k) ensures Lookup(m, KeyName(k)) == Expected(source, f, degrees, 0, 0, 0, k) {
      if !k.Plain? {
        assert KeyName(k)[0] in "pad";
        assert KeyName(k)[0] == 'p' ==> KeyName(k)[1] == 'h';
      }
    }
  }

  /** Lines 104-106, one iteration: phasor `i` adds its magnitude and its angle in degrees. */
  lemma AddPhasor(m: FieldMap, source: int, f: DataFrame, degrees: Degrees, i: nat)
    requires i < |f.phasors|
    requires Builds(m, source, f, degrees, i, 0, 0)
    ensures Builds(m[KeyName(PhasorMag(i)) := f.phasors[i].mag][KeyName(PhasorAng(i)) := VReal(degrees(f.phasors[i].angleRad))],
      source, f, degrees, i + 1, 0, 0)
  {
    var m1 := m[KeyName(PhasorMag(i)) := f.phasors[i].mag];
    Overwrite(m, PhasorMag(i), f.phasors[i].mag);
    Overwrite(m1, PhasorAng(i), VReal(degrees(f.phasors[i].angleRad)));
  }

  /** Lines 109-110, one iteration. */
  lemma AddAnalog(m: FieldMap, source: int, f: DataFrame, degrees: Degrees, i: nat)
    requires i < |f.analog|
    requires Builds(m, source, f, degrees, |f.phasors|, i, 0)
    ensures Builds(m[KeyName(Analog(i)) := f.analog[i]], source, f, degrees, |f.phasors|, i + 1, 0)
  {
    Overwrite(m, Analog(i), f.analog[i]);
  }

  /** Lines 113-114, one iteration: `int(bool(val))`. */
  lemma AddDigital(m: FieldMap, source: int, f: DataFrame, degrees: Degrees, i: nat)
    requires i < |f.digital|
    requires Builds(m, source, f, degrees, |f.phasors|, |f.analog|, i)
    ensures Builds(m[KeyName(Digital(i)) := VInt(if Truthy(f.digital[i]) then 1 else 0)], source, f, degrees, |f.phasors|, |f.analog|, i + 1)
  {
    Overwrite(m, Digital(i), VInt(if Truthy(f.digital[i]) then 1 else 0));
  }

  /** Lines 104-106: one magnitude and one angle per phasor. */
  method PutPhasors(m0: FieldMap, source: int, f: DataFrame, degrees: Degrees) returns (m: FieldMap)
    requires Builds(m0, source, f, degrees, 0, 0, 0)
    ensures Builds(m, source, f, degrees, |f.phasors|, 0, 0)
  {
    m := m0;
    var i := 0;
    while i < |f.phasors|
      invariant i <= |f.phasors|
      invariant Builds(m, source, f, degrees, i, 0, 0)
    {
      AddPhasor(m, source, f, degrees, i);
      m := m[KeyName(PhasorMag(i)) := f.phasors[i].mag][KeyName(PhasorAng(i)) := VReal(degrees(f.phasors[i].angleRad))];
      i := i + 1;
    }
  }

  /** Lines 109-110: one entry per analog value. */
  method PutAnalogs(m0: FieldMap, source: int, f: DataFrame, degrees: Degrees) returns (m: FieldMap)
    requires Builds(m0, source, f, degrees, |f.phasors|, 0, 0)
    ensures Builds(m, source, f, degrees, |f.phasors|, |f.analog|, 0)
  {
    m := m0;
    var i := 0;
    while i < |f.analog|
      invariant i <= |f.analog|
      invariant Builds(m, source, f, degrees, |f.phasors|, i, 0)
    {
      AddAnalog(m, source, f, degrees, i);
      m := m[KeyName(Analog(i)) := f.analog[i]];
      i := i + 1;
    }
  }

  /** Lines 113-114: one 0 or 1 entry per digital value. */
  method PutDigitals(m0: FieldMap, source: int, f: DataFrame, degrees: Degrees) returns (m: FieldMap)
    requires Builds(m0, source, f, degrees, |f.phasors|, |f.analog|, 0)
    ensures Builds(m, source, f, degrees, |f.phasors|, |f.analog|, |f.digital|)
  {
    m := m0;
    var i := 0;
    while i < |f.digital|
      invariant i <= |f.digital|
      invariant Builds(m, source, f, degrees, |f.phasors|, |f.analog|, i)
    {
      AddDigital(m, source, f, degrees, i);
      m := m[KeyName(Digital(i)) := VInt(if Truthy(f.digital[i]) then 1 else 0)];
      i := i + 1;
    }
  }

  /** Lines 94-114: the `phasor_frame` dictionary for one data frame from PMU `source`. */
  method BuildFrame(source: int, f: DataFrame, degrees: Degrees) returns (m: FieldMap)
    ensures Builds(m, source, f, degrees, |f.phasors|, |f.analog|, |f.digital|)
  {
    FixedPart(source, f, degrees);
    m := PutPhasors(Header(source, f), source, f, degrees);
    m := PutAnalogs(m, source, f, degrees);
    m := PutDigitals(m, source, f, degrees);
  }

  /**
   * The consequences a consumer relies on: the six fixed keys, one magnitude
   * and one angle per phasor, one entry per analog value, and digital
   * entries that are always 0 or 1.
   */
  lemma BuiltFrameShape(m: FieldMap, source: int, f: DataFrame, degrees: Degrees)
    requires Builds(m, source, f, degrees, |f.phasors|, |f.analog|, |f.digital|)
    ensures FixedFrameKeys <= m.Keys
    ensures forall i :: 0 <= i < |f.phasors| ==> KeyName(PhasorMag(i)) in m && KeyName(PhasorAng(i)) in m
    ensures forall i :: 0 <= i < |f.analog| ==> KeyName(Analog(i)) in m
    ensures forall i :: 0 <= i < |f.digital| ==> KeyName(Digital(i)) in m && m[KeyName(Digital(i))] in {VInt(0), VInt(1)}
    ensures forall i :: |f.phasors| <= i ==> KeyName(PhasorMag(i)) !in m && KeyName(PhasorAng(i)) !in m
  {
    forall n | n in FixedFrameKeys ensures n in m {
      assert WellFormed(Plain(n)) && KeyName(Plain(n)) == n;
    }
    forall i | 0 <= i < |f.phasors| ensures KeyName(PhasorMag(i)) in m && KeyName(PhasorAng(i)) in m {
      assert WellFormed(PhasorMag(i)) && WellFormed(PhasorAng(i));
    }
    forall i | 0 <= i < |f.analog| ensures KeyName(Analog(i)) in m {
      assert WellFormed(Analog(i));
    }
    forall i | 0 <= i < |f.digital| ensures KeyName(Digital(i)) in m && m[KeyName(Digital(i))] in {VInt(0), VInt(1)} {
      assert WellFormed(Digital(i));
    }
    forall i | |f.phasors| <= i ensures KeyName(PhasorMag(i)) !in m && KeyName(PhasorAng(i)) !in m {
      assert WellFormed(PhasorMag(i)) && WellFormed(PhasorAng(i));
    }
  }

  /**
   * A value redis-py can send with XADD: an int, a float or a string. Any
   * other type (a bool, None, a datetime) makes it raise DataError.
   */
  predicate Sendable(v: Value) {
    v.VInt? || v.VReal? || v.VStr?
  }

  /** The values a frame copies through unchanged are all sendable. */
  predicate FrameSendable(f: DataFrame) {
    && Sendable(f.frequency) && Sendable(f.dfreq)
    && (forall i :: 0 <= i < |f.phasors| ==> Sendable(f.phasors[i].mag))
    && (forall i :: 0 <= i < |f.analog| ==> Sendable(f.analog[i]))
  }

  /** A built frame can be sent exactly when the values it copies from the message can: the rest it makes itself. */
  lemma BuiltFrameSendable(m: FieldMap, source: int, f: DataFrame, degrees: Degrees)
    requires Builds(m, source, f, degrees, |f.phasors|, |f.analog|, |f.digital|)
    ensures (forall n | n in m :: Sendable(m[n])) <==> FrameSendable(f)
  {
    if forall n | n in m :: Sendable(m[n]) {
      assert WellFormed(Plain("freq")) && WellFormed(Plain("rocof"));
      assert Lookup(m, KeyName(Plain("freq"))) == Some(f.frequency);
      assert Lookup(m, KeyName(Plain("rocof"))) == Some(f.dfreq);
      forall i | 0 <= i < |f.phasors| ensures Sendable(f.phasors[i].mag) {
        assert Lookup(m, KeyName(PhasorMag(i))) == Some(f.phasors[i].mag);
      }
      forall i | 0 <= i < |f.analog| ensures Sendable(f.analog[i]) {
        assert Lookup(m, KeyName(Analog(i))) == Some(f.analog[i]);
      }
    }
    if FrameSendable(f) {
      forall n | n in m ensures Sendable(m[n]) {
        var k :| WellFormed(k) && KeyName(k) == n;
        assert Lookup(m, n) == Expected(source, f, degrees, |f.phasors|, |f.analog|, |f.digital|, k);
      }
    }
  }

  /**
   * Lines 85-129 for one decoded message: only a data frame is published, a
   * config frame is only logged. `connected` says whether Redis answers the
   * XADD; when it does not, or when a value cannot be sent, XADD raises and
   * the handler at lines 125-126 logs the error and drops the frame.
   */
  method HandleFrame(source: int, msg: Decoded, degrees: Degrees, connected: bool) returns (published: Option<FieldMap>)
    ensures published.Some? <==> msg.Data? && connected && FrameSendable(msg.frame)
    ensures published.Some? ==> Builds(published.value, source, msg.frame, degrees, |msg.frame.phasors|, |msg.frame.analog|, |msg.frame.digital|)
  {
    if msg.Data? {
      var m := BuildFrame(source, msg.frame, degrees);
      BuiltFrameSendable(m, source, msg.frame, degrees);
      if connected && forall n | n in m :: Sendable(m[n]) {
        published := Some(m);
      } else {
        published := None;
      }
    } else {
      published := None;
    }
  }
}

=== FILE: persistor.dfy ===
/**
 * The persistor's main loop (`run_persistor` with `flush_buffer_to_db`):
 * read a batch through the consumer group, map entries to rows, buffer them,
 * bulk-insert once the buffer is full, and acknowledge a batch only after
 * its insert committed. Redis replies, the commit outcome and the clock are
 * inputs; the rows committed to `phasor_data` and the entries acknowledged
 * to the group are part of the state so that their order can be stated.
 */
module Persistor {
  import opened Wrappers
  import opened Fields
  import opened Schema
  import opened RowMapper
  import opened Discovery

  /** Entries asked for per read, and the buffer size that triggers a bulk insert. */
  const BatchSize: nat := 500
  /** Rediscovery happens once more than this many milliseconds have passed. */
  const DiscoveryIntervalMs: int := 30000

  /** A stream entry, by stream name and entry id. */
  datatype EntryRef = EntryRef(stream: string, id: string)

  datatype Message = Message(id: string, fields: FieldMap)

  /** One `[stream_name, messages]` element of the XREADGROUP reply. */
  datatype StreamReply = StreamReply(stream: string, messages: seq<Message>)

  /** One message together with the stream it came from. */
  datatype Delivery = Delivery(stream: string, message: Message)

  /** `acks_to_send`: the ids to acknowledge, per stream, in delivery order. */
  type AckQueue = map<string, seq<string>>

  datatype Pipeline = Pipeline(
    buffer: seq<Row>,        // data_buffer
    acksToSend: AckQueue,    // acks_to_send
    acked: set<EntryRef>,    // entries acknowledged to the group with XACK
    committed: seq<Row>)     // rows committed to phasor_data, in commit order

  const Idle: Pipeline := Pipeline([], map[], {}, [])

  function Ref(d: Delivery): EntryRef {
    EntryRef(d.stream, d.message.id)
  }

  /** The messages of one reply in the order the two nested `for` loops visit them. */
  function Flatten(reply: seq<StreamReply>): (ds: seq<Delivery>)
    ensures forall k :: 0 <= k < |ds| ==> exists i :: 0 <= i < |reply| && ds[k].stream == reply[i].stream && ds[k].message in reply[i].messages
  {
    if |reply| == 0 then []
    else
      var r := reply[0];
      var head := seq(|r.messages|, j requires 0 <= j < |r.messages| => Delivery(r.stream, r.messages[j]));
      var tail := Flatten(reply[1..]);
      assert forall k :: 0 <= k < |tail| ==> exists i :: 0 <= i < |reply| && tail[k].stream == reply[i].stream && tail[k].message in reply[i].messages by {
        forall k | 0 <= k < |tail|
          ensures exists i :: 0 <= i < |reply| && tail[k].stream == reply[i].stream && tail[k].message in reply[i].messages
        {
          var i :| 0 <= i < |reply[1..]| && tail[k].stream == reply[1..][i].stream && tail[k].message in reply[1..][i].messages;
          assert reply[1..][i] == reply[i + 1];
        }
      }
      head + tail
  }

  /** Every message of every stream in the reply is delivered. */
  lemma {:induction false} FlattenDeliversAll(reply: seq<StreamReply>)
    ensures forall i, j :: 0 <= i < |reply| && 0 <= j < |reply[i].messages| ==>
      Delivery(reply[i].stream, reply[i].messages[j]) in Flatten(reply)
    decreases |reply|
  {
    if 0 < |reply| {
      FlattenDeliversAll(reply[1..]);
      var head := seq(|reply[0].messages|, j requires 0 <= j < |reply[0].messages| => Delivery(reply[0].stream, reply[0].messages[j]));
      assert Flatten(reply) == head + Flatten(reply[1..]);
      forall i, j | 0 <= i < |reply| && 0 <= j < |reply[i].messages|
        ensures Delivery(reply[i].stream, reply[i].messages[j]) in Flatten(reply)
      {
        if i == 0 {
          assert head[j] == Delivery(reply[0].stream, reply[0].messages[j]);
        } else {
          assert reply[1..][i - 1] == reply[i];
        }
      }
    }
  }

  /** The ids of the deliveries from `stream`, in delivery order. */
  function IdsFrom(ds: seq<Delivery>, stream: string): seq<string> {
    if |ds| == 0 then []
    else (if ds[0].stream == stream then [ds[0].message.id] else []) + IdsFrom(ds[1..], stream)
  }

  /** The rows a batch adds to the buffer: those of entries whose timestamp parsed. */
  function TimedRows(ds: seq<Delivery>, parse: TimestampParser): seq<Row> {
    if |ds| == 0 then []
    else
      var r := FormatRow(ds[0].message.fields, parse);
      (if r.Success? && HasTime(r.value) then [r.value] else []) + TimedRows(ds[1..], parse)
  }

  /** How many deliveries are handled before one without `ts` raises KeyError. */
  function Handled(ds: seq<Delivery>): (n: nat)
    ensures n <= |ds|
    ensures forall k :: 0 <= k < n ==> "ts" in ds[k].message.fields
    ensures n < |ds| ==> "ts" !in ds[n].message.fields
  {
    if |ds| == 0 || "ts" !in ds[0].message.fields then 0 else 1 + Handled(ds[1..])
  }

  function Queued(q: AckQueue, stream: string): seq<string> {
    if stream in q then q[stream] else []
  }

  /** Lines 217-219: append one id to its stream's list, creating the list on first use. */
  function QueueAck(q: AckQueue, stream: string, id: string): (r: AckQueue)
    ensures Queued(r, stream) == Queued(q, stream) + [id]
    ensures forall s :: s != stream ==> Queued(r, s) == Queued(q, s)
    ensures r.Keys == q.Keys + {stream}
  {
    q[stream := Queued(q, stream) + [id]]
  }

  /** The entries an acknowledgement queue names. */
  function QueuedRefs(q: AckQueue): set<EntryRef> {
    set s, id | s in q && id in q[s] :: EntryRef(s, id)
  }

  datatype Collected = Collected(buffer: seq<Row>, acks: AckQueue, handled: nat)

  /**
   * Lines 209-219 over the flattened deliveries: every handled entry queues
   * its id, and its row joins the buffer when the time slot is set; the
   * first entry without `ts` stops the loop with the state reached so far.
   */
  function Collect(buffer: seq<Row>, acks: AckQueue, ds: seq<Delivery>, parse: TimestampParser): (b: Collected)
    ensures b.handled == Handled(ds)
    decreases |ds|
  {
    if |ds| == 0 then Collected(buffer, acks, 0)
    else
      var r := FormatRow(ds[0].message.fields, parse);
      if r.Failure? then Collected(buffer, acks, 0)
      else
        var buffer' := if HasTime(r.value) then buffer + [r.value] else buffer;
        var rest := Collect(buffer', QueueAck(acks, ds[0].stream, ds[0].message.id), ds[1..], parse);
        Collected(rest.buffer, rest.acks, rest.handled + 1)
  }

  /** The buffer after a batch is the old buffer followed by the timed rows of the handled entries. */
  lemma {:induction false} CollectBuffers(buffer: seq<Row>, acks: AckQueue, ds: seq<Delivery>, parse: TimestampParser)
    ensures Collect(buffer, acks, ds, parse).buffer == buffer + TimedRows(ds[..Handled(ds)], parse)
    decreases |ds|
  {
    if 0 < |ds| && "ts" in ds[0].message.fields {
      var row := FormatRow(ds[0].message.fields, parse).value;
      var buffer' := if HasTime(row) then buffer + [row] else buffer;
      var acks' := QueueAck(acks, ds[0].stream, ds[0].message.id);
      CollectBuffers(buffer', acks', ds[1..], parse);
      assert Collect(buffer, acks, ds, parse).buffer == Collect(buffer', acks', ds[1..], parse).buffer;
      var seen := ds[..Handled(ds)];
      assert seen[0] == ds[0];
      assert seen[1..] == ds[1..][..Handled(ds[1..])];
    }
  }

  /** Concatenation regroups freely. */
  lemma ConcatAssoc<T>(a: seq<T>, b: seq<T>, c: seq<T>)
    ensures (a + b) + c == a + (b + c)
  {
  }

  /** Queueing the first of `seen` and then the ids of the rest queues the ids of all of `seen`. */
  lemma QueueFirst(acks: AckQueue, seen: seq<Delivery>, stream: string)
    requires 0 < |seen|
    ensures Queued(QueueAck(acks, seen[0].stream, seen[0].message.id), stream) + IdsFrom(seen[1..], stream)
      == Queued(acks, stream) + IdsFrom(seen, stream)
  {
    var own: seq<string> := if seen[0].stream == stream then [seen[0].message.id] else [];
    assert Queued(QueueAck(acks, seen[0].stream, seen[0].message.id), stream) == Queued(acks, stream) + own;
    assert IdsFrom(seen, stream) == own + IdsFrom(seen[1..], stream);
    ConcatAssoc(Queued(acks, stream), own, IdsFrom(seen[1..], stream));
  }

  /** After a batch, each stream's queue is its old queue followed by the ids handled from it, in order. */
  lemma {:induction false} CollectQueues(buffer: seq<Row>, acks: AckQueue, ds: seq<Delivery>, parse: TimestampParser, stream: string)
    ensures Queued(Collect(buffer, acks, ds, parse).acks, stream) == Queued(acks, stream) + IdsFrom(ds[..Handled(ds)], stream)
    decreases |ds|
  {
    if 0 < |ds| && "ts" in ds[0].message.fields {
      var row := FormatRow(ds[0].message.fields, parse).value;
      var buffer' := if HasTime(row) then buffer + [row] else buffer;
      var acks' := QueueAck(acks, ds[0].stream, ds[0].message.id);
      assert Collect(buffer, acks, ds, parse).acks == Collect(buffer', acks', ds[1..], parse).acks;
      CollectQueues(buffer', acks', ds[1..], parse, stream);
      var seen := ds[..Handled(ds)];
      assert seen[0] == ds[0];
      assert seen[1..] == ds[1..][..Handled(ds[1..])];
      QueueFirst(acks, seen, stream);
    } else {
      assert ds[..Handled(ds)] == [];
    }
  }

  datatype Flushed = Flushed(state: Pipeline, ok: bool)

  /**
   * `flush_buffer_to_db`. `commitOk` says whether the bulk insert and the
   * commit succeed (reconnecting included). An empty buffer succeeds without
   * touching the database; a failure rolls back and keeps the buffer.
   */
  function Flush(p: Pipeline, commitOk: bool): (r: Flushed)
    ensures r.state.committed + r.state.buffer == p.committed + p.buffer
    ensures r.ok <==> r.state.buffer == []
    ensures r.ok <==> commitOk || |p.buffer| == 0
    ensures !r.ok ==> r.state == p
    ensures |p.buffer| == 0 ==> r.state == p
    ensures r.ok ==> r.state.committed == p.committed + p.buffer
    ensures r.state.acked == p.acked && r.state.acksToSend == p.acksToSend
  {
    if |p.buffer| == 0 then Flushed(p, true)
    else if commitOk then Flushed(p.(buffer := [], committed := p.committed + p.buffer), true)
    else Flushed(p, false)
  }

  /** A failed flush retried with success commits the buffer once, exactly as a first success would. */
  lemma FlushRetryCommitsOnce(p: Pipeline)
    ensures Flush(Flush(p, false).state, true) == Flush(p, true)
    ensures Flush(Flush(p, true).state, true).state == Flush(p, true).state
  {
  }

  /**
   * Lines 208-219: a fresh `acks_to_send`, then every handled delivery
   * queues its id and, when its time slot is set, buffers its row.
   */
  function Absorb(p: Pipeline, ds: seq<Delivery>, parse: TimestampParser): (q: Pipeline)
    ensures q.buffer == p.buffer + TimedRows(ds[..Handled(ds)], parse)
    ensures forall s :: Queued(q.acksToSend, s) == IdsFrom(ds[..Handled(ds)], s)
    ensures q.acked == p.acked && q.committed == p.committed
  {
    var b := Collect(p.buffer, map[], ds, parse);
    CollectBuffers(p.buffer, map[], ds, parse);
    assert forall s :: Queued(b.acks, s) == IdsFrom(ds[..Handled(ds)], s) by {
      forall s ensures Queued(b.acks, s) == IdsFrom(ds[..Handled(ds)], s) {
        CollectQueues(p.buffer, map[], ds, parse, s);
      }
    }
    p.(buffer := b.buffer, acksToSend := b.acks)
  }

  /** Whether a non-empty batch ends in an acknowledgement (lines 222-226). */
  predicate AcksBatch(p: Pipeline, ds: seq<Delivery>, commitOk: bool, parse: TimestampParser) {
    && Handled(ds) == |ds|
    && BatchSize <= |p.buffer| + |TimedRows(ds, parse)|
    && commitOk
  }

  /**
   * Lines 208-228 for a non-empty reply flattened to `ds`: absorb the batch,
   * then, when every entry was handled and the buffer reached `BatchSize`,
   * flush it and acknowledge the batch if the commit succeeded.
   */
  function Batch(p: Pipeline, ds: seq<Delivery>, commitOk: bool, parse: TimestampParser): (q: Pipeline)
    // no row is ever lost or duplicated: committed plus buffered grows by exactly the batch's timed rows
    ensures q.committed + q.buffer == p.committed + p.buffer + TimedRows(ds[..Handled(ds)], parse)
    ensures p.committed <= q.committed
    ensures !commitOk ==> q.committed == p.committed
    // a batch starts a fresh queue holding exactly its handled ids, per stream, in delivery order
    ensures forall s :: Queued(q.acksToSend, s) == IdsFrom(ds[..Handled(ds)], s)
    // acknowledgement happens only for a fully handled batch, after its rows were committed
    ensures AcksBatch(p, ds, commitOk, parse) ==> q.buffer == [] && q.acked == p.acked + QueuedRefs(q.acksToSend)
    ensures !AcksBatch(p, ds, commitOk, parse) ==> q.acked == p.acked
    // the only flush is the one that acknowledges: below 500 rows, or after a KeyError, nothing is committed
    ensures !AcksBatch(p, ds, commitOk, parse) ==> q.committed == p.committed
  {
    var q := Absorb(p, ds, parse);
    if Handled(ds) < |ds| then q
    else
      assert ds[..Handled(ds)] == ds;
      if BatchSize <= |q.buffer| then
        var f := Flush(q, commitOk);
        if f.ok then f.state.(acked := f.state.acked + QueuedRefs(q.acksToSend)) else f.state
      else q
  }

  /**
   * One pass of the loop body once there are streams to listen to and the
   * read returned `reply` (lines 193-228). An empty reply is the read
   * timeout: the residual buffer is flushed and nothing is acknowledged.
   */
  function Step(p: Pipeline, reply: seq<StreamReply>, commitOk: bool, parse: TimestampParser): (q: Pipeline)
    ensures |reply| == 0 ==> q.committed + q.buffer == p.committed + p.buffer
    ensures |reply| == 0 ==> q.acked == p.acked && q.acksToSend == p.acksToSend
    // a timeout with a committing flush empties the buffer into the table; a failing one changes nothing
    ensures |reply| == 0 && commitOk ==> q.buffer == [] && q.committed == p.committed + p.buffer
    ensures |reply| == 0 && !commitOk ==> q == p
    // a reply is one batch
    ensures 0 < |reply| ==> q == Batch(p, Flatten(reply), commitOk, parse)
    ensures p.committed <= q.committed
    ensures !commitOk ==> q.committed == p.committed
  {
    if |reply| == 0 then Flush(p, commitOk).state else Batch(p, Flatten(reply), commitOk, parse)
  }

  /** The entries a sequence of deliveries names. */
  function RefsOf(ds: seq<Delivery>): set<EntryRef> {
    set d | d in ds :: Ref(d)
  }

  /** An id is among a stream's ids exactly when a delivery from that stream carries it. */
  lemma {:induction false} IdsFromMember(ds: seq<Delivery>, stream: string, id: string)
    ensures id in IdsFrom(ds, stream) <==> EntryRef(stream, id) in RefsOf(ds)
    decreases |ds|
  {
    if 0 < |ds| {
      IdsFromMember(ds[1..], stream, id);
      assert ds == [ds[0]] + ds[1..];
      assert RefsOf(ds) == {Ref(ds[0])} + RefsOf(ds[1..]);
    }
  }

  /** A queue built per stream from `ds` names exactly the entries of `ds`: XACK covers the batch and nothing else. */
  lemma QueueCoversBatch(q: AckQueue, ds: seq<Delivery>)
    requires forall s :: Queued(q, s) == IdsFrom(ds, s)
    ensures QueuedRefs(q) == RefsOf(ds)
  {
    forall e | e in RefsOf(ds) ensures e in QueuedRefs(q) {
      IdsFromMember(ds, e.stream, e.id);
      assert e.id in Queued(q, e.stream);
    }
    forall e | e in QueuedRefs(q) ensures e in RefsOf(ds) {
      assert e.id in Queued(q, e.stream);
      IdsFromMember(ds, e.stream, e.id);
    }
  }

  /** An acknowledging batch acknowledges exactly the entries it delivered, and none left over from an earlier batch. */
  lemma BatchAcksItsEntries(p: Pipeline, ds: seq<Delivery>, commitOk: bool, parse: TimestampParser)
    requires AcksBatch(p, ds, commitOk, parse)
    ensures Batch(p, ds, commitOk, parse).acked == p.acked + RefsOf(ds)
  {
    var q := Batch(p, ds, commitOk, parse);
    assert ds[..Handled(ds)] == ds;
    QueueCoversBatch(q.acksToSend, ds);
  }

  /** Every handled entry whose time slot is set contributes its row to the batch's timed rows. */
  lemma {:induction false} TimedRowsMember(ds: seq<Delivery>, parse: TimestampParser, k: nat)
    requires k < |ds|
    requires FormatRow(ds[k].message.fields, parse).Success? && HasTime(FormatRow(ds[k].message.fields, parse).value)
    ensures FormatRow(ds[k].message.fields, parse).value in TimedRows(ds, parse)
    decreases |ds|
  {
    if 0 < k {
      TimedRowsMember(ds[1..], parse, k - 1);
    }
  }

  /**
   * The content each entry had when it was written. Stream entries are
   * immutable, so every delivery of an entry carries the same fields.
   */
  type Content = EntryRef -> FieldMap

  predicate Faithful(ds: seq<Delivery>, content: Content) {
    forall d | d in ds :: content(Ref(d)) == d.message.fields
  }

  /** An entry whose loss would be harmless: it formats, and its row, if it has a time, is in the table. */
  predicate Persisted(fields: FieldMap, committed: seq<Row>, parse: TimestampParser) {
    var r := FormatRow(fields, parse);
    r.Success? && (HasTime(r.value) ==> r.value in committed)
  }

  /** The delivery guarantee: Redis has been told to forget only entries whose rows are committed. */
  predicate AckSafe(p: Pipeline, content: Content, parse: TimestampParser) {
    forall e | e in p.acked :: Persisted(content(e), p.committed, parse)
  }

  /** A batch step keeps the delivery guarantee. */
  lemma BatchKeepsAckSafe(p: Pipeline, ds: seq<Delivery>, commitOk: bool, parse: TimestampParser, content: Content)
    requires AckSafe(p, content, parse) && Faithful(ds, content)
    ensures AckSafe(Batch(p, ds, commitOk, parse), content, parse)
  {
    var q := Batch(p, ds, commitOk, parse);
    forall e | e in p.acked ensures Persisted(content(e), q.committed, parse) {
      assert Persisted(content(e), p.committed, parse);
    }
    if AcksBatch(p, ds, commitOk, parse) {
      assert ds[..Handled(ds)] == ds;
      QueueCoversBatch(q.acksToSend, ds);
      forall e | e in QueuedRefs(q.acksToSend) ensures Persisted(content(e), q.committed, parse) {
        var d :| d in ds && Ref(d) == e;
        var k :| 0 <= k < |ds| && ds[k] == d;
        assert "ts" in d.message.fields;
        var r := FormatRow(d.message.fields, parse);
        if HasTime(r.value) {
          TimedRowsMember(ds, parse, k);
          assert q.committed == p.committed + p.buffer + TimedRows(ds, parse);
        }
      }
    }
  }

  /** `flush_buffer_to_db` on shutdown (lines 237-239): a last flush and no acknowledgement. */
  function Shutdown(p: Pipeline, commitOk: bool): (q: Pipeline)
    ensures q.committed + q.buffer == p.committed + p.buffer
    ensures q.acked == p.acked && q.acksToSend == p.acksToSend
    ensures commitOk ==> q.buffer == [] && q.committed == p.committed + p.buffer
    ensures !commitOk ==> q == p
  {
    Flush(p, commitOk).state
  }

  /** Whatever the persistor owns between two passes of `while running`. */
  datatype Persistor = Persistor(
    pipe: Pipeline,
    streams: map<string, string>,   // streams_to_listen
    registered: seq<int>,           // PMU ids handed to register_pmu, in call order
    lastDiscoveryMs: int)           // last_discovery_time

  datatype ReadOutcome = ReadFailed | Replied(reply: seq<StreamReply>)

  /**
   * The outside world during one pass: the clock, what KEYS and XGROUP
   * CREATE would answer if discovery runs, what XREADGROUP answers and
   * whether a flush would commit.
   */
  datatype Tick = Tick(
    nowMs: int,
    keys: Option<seq<string>>,
    createGroup: string -> GroupCreate,
    read: ReadOutcome,
    commitOk: bool)

  /** Lines 176-177: discovery once at start, with an empty pipeline. */
  function Start(keys: Option<seq<string>>, createGroup: string -> GroupCreate, nowMs: int): (s: Persistor)
    ensures s.pipe == Idle && s.lastDiscoveryMs == nowMs
    ensures s.streams == Discover(keys, createGroup).streams
    ensures s.registered == Discover(keys, createGroup).registered
  {
    var d := Discover(keys, createGroup);
    Persistor(Idle, d.streams, d.registered, nowMs)
  }

  predicate DiscoveryDue(s: Persistor, nowMs: int) {
    nowMs - s.lastDiscoveryMs > DiscoveryIntervalMs
  }

  /** Lines 181-184: rediscover once more than `DiscoveryIntervalMs` have passed. */
  function Rediscover(s: Persistor, t: Tick): (r: Persistor)
    ensures DiscoveryDue(s, t.nowMs) ==> r.streams == Discover(t.keys, t.createGroup).streams && r.lastDiscoveryMs == t.nowMs
    ensures DiscoveryDue(s, t.nowMs) ==> r.registered == s.registered + Discover(t.keys, t.createGroup).registered
    ensures !DiscoveryDue(s, t.nowMs) ==> r == s
    ensures r.pipe == s.pipe
  {
    if DiscoveryDue(s, t.nowMs) then
      var d := Discover(t.keys, t.createGroup);
      s.(streams := d.streams, registered := s.registered + d.registered, lastDiscoveryMs := t.nowMs)
    else s
  }

  /**
   * One pass of `while running` (lines 179-235): rediscover when due, wait
   * when there is nothing to listen to, otherwise read and step. A Redis
   * error from the read leaves the pipeline as it was.
   */
  function Cycle(s: Persistor, t: Tick, parse: TimestampParser): (r: Persistor)
    ensures r.streams == Rediscover(s, t).streams && r.registered == Rediscover(s, t).registered
    // the discovery clock is reset exactly when a discovery ran, so the next one is an interval later
    ensures r.lastDiscoveryMs == Rediscover(s, t).lastDiscoveryMs
    // nothing is read, buffered, committed or acknowledged without a stream to listen to
    ensures r.streams == map[] ==> r.pipe == s.pipe
    ensures t.read.ReadFailed? ==> r.pipe == s.pipe
    ensures r.pipe != s.pipe ==> t.read.Replied? && r.pipe == Step(s.pipe, t.read.reply, t.commitOk, parse)
    // with a stream to listen to, a reply is always handled
    ensures r.streams != map[] && t.read.Replied? ==> r.pipe == Step(s.pipe, t.read.reply, t.commitOk, parse)
  {
    var s1 := Rediscover(s, t);
    if s1.streams == map[] then s1
    else match t.read
      case ReadFailed => s1
      case Replied(reply) => s1.(pipe := Step(s1.pipe, reply, t.commitOk, parse))
  }

  /** The replies of a tick hand out entries as they were written. */
  predicate TickFaithful(t: Tick, content: Content) {
    t.read.Replied? ==> Faithful(Flatten(t.read.reply), content)
  }

  /** A loop pass keeps the delivery guarantee. */
  lemma CycleKeepsAckSafe(s: Persistor, t: Tick, parse: TimestampParser, content: Content)
    requires AckSafe(s.pipe, content, parse) && TickFaithful(t, content)
    ensures AckSafe(Cycle(s, t, parse).pipe, content, parse)
  {
    var r := Cycle(s, t, parse);
    if r.pipe != s.pipe && 0 < |t.read.reply| {
      BatchKeepsAckSafe(s.pipe, Flatten(t.read.reply), t.commitOk, parse, content);
    }
  }

  /** The loop over a sequence of passes; the shutdown flush follows it separately. */
  function Run(s: Persistor, ticks: seq<Tick>, parse: TimestampParser): (r: Persistor)
    ensures r.lastDiscoveryMs == s.lastDiscoveryMs || exists k :: 0 <= k < |ticks| && r.lastDiscoveryMs == ticks[k].nowMs
    ensures s.registered <= r.registered
    decreases |ticks|
  {
    if |ticks| == 0 then s
    else
      var s1 := Cycle(s, ticks[0], parse);
      var r := Run(s1, ticks[1..], parse);
      assert r.lastDiscoveryMs == s1.lastDiscoveryMs || exists k :: 0 <= k < |ticks| && r.lastDiscoveryMs == ticks[k].nowMs by {
        if r.lastDiscoveryMs != s1.lastDiscoveryMs {
          var k :| 0 <= k < |ticks[1..]| && r.lastDiscoveryMs == ticks[1..][k].nowMs;
          assert ticks[1..][k] == ticks[k + 1];
        }
      }
      r
  }

  /** Running one more pass is running the passes so far and then that pass: every tick is applied, in order. */
  lemma {:induction false} RunSnoc(s: Persistor, ticks: seq<Tick>, t: Tick, parse: TimestampParser)
    ensures Run(s, ticks + [t], parse) == Cycle(Run(s, ticks, parse), t, parse)
    decreases |ticks|
  {
    if |ticks| == 0 {
      assert (ticks + [t])[1..] == [];
    } else {
      assert (ticks + [t])[0] == ticks[0];
      assert (ticks + [t])[1..] == ticks[1..] + [t];
      RunSnoc(Cycle(s, ticks[0], parse), ticks[1..], t, parse);
    }
  }

  /**
   * The delivery guarantee over a whole run, shutdown included: starting
   * from nothing acknowledged, every entry ever acknowledged is persisted.
   */
  lemma {:induction false} RunKeepsAckSafe(s: Persistor, ticks: seq<Tick>, parse: TimestampParser, content: Content, commitOk: bool)
    requires AckSafe(s.pipe, content, parse)
    requires forall k :: 0 <= k < |ticks| ==> TickFaithful(ticks[k], content)
    ensures AckSafe(Run(s, ticks, parse).pipe, content, parse)
    ensures AckSafe(Shutdown(Run(s, ticks, parse).pipe, commitOk), content, parse)
    decreases |ticks|
  {
    if 0 < |ticks| {
      CycleKeepsAckSafe(s, ticks[0], parse, content);
      assert forall k :: 0 <= k < |ticks[1..]| ==> ticks[1..][k] == ticks[k + 1];
      RunKeepsAckSafe(Cycle(s, ticks[0], parse), ticks[1..], parse, content, commitOk);
    }
    var p := Run(s, ticks, parse).pipe;
    var q := Shutdown(p, commitOk);
    forall e | e in q.acked ensures Persisted(content(e), q.committed, parse) {
      assert Persisted(content(e), p.committed, parse);
    }
  }

  /**
   * The delivery guarantee for the persistor as launched (lines 176-239):
   * from the startup discovery on, through any passes and the shutdown
   * flush, Redis is told to forget only entries whose rows are committed.
   */
  lemma StartedRunKeepsAckSafe(keys: Option<seq<string>>, createGroup: string -> GroupCreate, nowMs: int,
                               ticks: seq<Tick>, parse: TimestampParser, content: Content, commitOk: bool)
    requires forall k :: 0 <= k < |ticks| ==> TickFaithful(ticks[k], content)
    ensures AckSafe(Run(Start(keys, createGroup, nowMs), ticks, parse).pipe, content, parse)
    ensures AckSafe(Shutdown(Run(Start(keys, createGroup, nowMs), ticks, parse).pipe, commitOk), content, parse)
  {
    var s := Start(keys, createGroup, nowMs);
    assert s.pipe.acked == {};
    RunKeepsAckSafe(s, ticks, parse, content, commitOk);
  }
}

=== FILE: row_mapper.dfy ===
/**
 * `format_row_from_redis`: a flat field map, as read from a stream entry,
 * becomes one tuple in the exact column order of `phasor_data`.
 */
module RowMapper {
  import opened Wrappers
  import opened Fields
  import opened Schema

  /** A row tuple: one slot per entry of `TableColumns`; None is SQL NULL. */
  type Row = seq<Option<Value>>

  /** The one error that escapes the mapper: `KeyError('ts')` when the entry has no `ts` field. */
  datatype RowError = MissingTimestamp

  /**
   * `datetime.fromtimestamp(float(v))`, left abstract: None when the
   * conversion raises TypeError or ValueError, else the epoch seconds.
   */
  type TimestampParser = Value -> Option<real>

  /** The value stored under `time`: the parsed timestamp, or None when it does not convert. */
  function TimeSlot(m: FieldMap, parse: TimestampParser): Option<Value>
    requires "ts" in m
  {
    match parse(m["ts"])
    case Some(t) => Some(VTime(t))
    case None => None
  }

  /**
   * The row for one entry. The time slot comes from `ts`; every other slot
   * is the field of the same name, NULL when absent and never a default.
   */
  function FormatRow(m: FieldMap, parse: TimestampParser): (r: Result<Row, RowError>)
    ensures r.Failure? <==> "ts" !in m
    ensures r.Success? ==> |r.value| == |TableColumns|
    ensures r.Success? ==> (r.value[0].Some? <==> parse(m["ts"]).Some?)
    ensures r.Success? && r.value[0].Some? ==> r.value[0].value == VTime(parse(m["ts"]).value)
    ensures r.Success? ==> forall i :: 1 <= i < |TableColumns| ==> (r.value[i] == None <==> TableColumns[i] !in m)
    ensures r.Success? ==> forall i :: 1 <= i < |TableColumns| && TableColumns[i] in m ==> r.value[i] == Some(m[TableColumns[i]])
  {
    if "ts" !in m then Failure(MissingTimestamp)
    else
      var row := seq(|TableColumns|, i requires 0 <= i < |TableColumns| =>
        if i == 0 then TimeSlot(m, parse) else Lookup(m, TableColumns[i]));
      assert row[0] == TimeSlot(m, parse);
      Success(row)
  }

  /** `row[0] is not None`: the rows the persistor keeps. */
  predicate HasTime(row: Row) {
    0 < |row| && row[0].Some?
  }

  /**
   * The row depends only on `ts` and on the fields named by columns 1..38:
   * two maps that agree there give the same row (or both lack `ts`).
   */
  lemma FormatRowDependsOnColumnsOnly(m: FieldMap, m': FieldMap, parse: TimestampParser)
    requires ("ts" in m <==> "ts" in m')
    requires "ts" in m ==> m["ts"] == m'["ts"]
    requires forall i :: 1 <= i < |TableColumns| ==> Lookup(m, TableColumns[i]) == Lookup(m', TableColumns[i])
    ensures FormatRow(m, parse) == FormatRow(m', parse)
  {
    if "ts" in m {
      var r, r' := FormatRow(m, parse).value, FormatRow(m', parse).value;
      forall i | 0 <= i < |TableColumns|
        ensures r[i] == r'[i]
      {
        if 0 < i {
          assert Lookup(m, TableColumns[i]) == Lookup(m', TableColumns[i]);
        }
      }
      assert r == r';
    }
  }

  /**
   * A field no column names (`ts_iso`, `phasor_12_mag`, ...) has no effect on
   * the row, and neither has an incoming `time` field, which is overwritten.
   */
  lemma ExtraFieldIgnored(m: FieldMap, key: string, v: Value, parse: TimestampParser)
    requires key != "ts"
    requires key == "time" || key !in TableColumns
    ensures FormatRow(m[key := v], parse) == FormatRow(m, parse)
  {
    forall i | 1 <= i < |TableColumns|
      ensures Lookup(m[key := v], TableColumns[i]) == Lookup(m, TableColumns[i])
    {
      if key == "time" {
        TableColumnsDistinct();
        assert TableColumns[0] == "time";
      }
    }
    FormatRowDependsOnColumnsOnly(m[key := v], m, parse);
  }

  /** The slot that `ColumnOf` names for a field holds that field's value. */
  lemma FieldLandsInItsColumn(m: FieldMap, key: Key, parse: TimestampParser)
    requires "ts" in m
    requires WellFormed(key)
    requires ColumnOf(key).Some? && ColumnOf(key).value != 0
    ensures ColumnOf(key).value < |TableColumns|
    ensures FormatRow(m, parse).value[ColumnOf(key).value] == Lookup(m, KeyName(key))
  {
    ColumnOfFindsColumn(key);
  }
}

=== FILE: schema.dfy ===
/**
 * The column schema of the wide `phasor_data` table and the field names the
 * producer writes: one naming scheme, `phasor_<i>_mag`, `phasor_<i>_ang_deg`,
 * `analog_<i>`, `digital_<i>`, shared by both ends of the stream.
 */
module Schema {
  import opened Wrappers
  import opened Text

  /** A field or column name, by its role. */
  datatype Key =
    | Plain(name: string)
    | PhasorMag(index: nat)
    | PhasorAng(index: nat)
    | Analog(index: nat)
    | Digital(index: nat)

  /** A plain name cannot be mistaken for an indexed one: it starts with neither `ph`, `a` nor `d`. */
  predicate PlainName(name: string) {
    && 0 < |name|
    && name[0] != 'a'
    && name[0] != 'd'
    && (name[0] == 'p' ==> 1 < |name| && name[1] != 'h')
  }

  predicate WellFormed(k: Key) {
    k.Plain? ==> PlainName(k.name)
  }

  /** The name under which a key is written, e.g. `f'phasor_{i}_mag'`. */
  function KeyName(k: Key): string {
    match k
    case Plain(n) => n
    case PhasorMag(i) => "phasor_" + NatToDecimal(i) + "_mag"
    case PhasorAng(i) => "phasor_" + NatToDecimal(i) + "_ang_deg"
    case Analog(i) => "analog_" + NatToDecimal(i)
    case Digital(i) => "digital_" + NatToDecimal(i)
  }

  /** Two phasor names agree only for the same index and the same part. */
  lemma PhasorNamesInjective(a: Key, b: Key)
    requires (a.PhasorMag? || a.PhasorAng?) && (b.PhasorMag? || b.PhasorAng?)
    ensures KeyName(a) == KeyName(b) ==> a == b
  {
    var sa := if a.PhasorMag? then "_mag" else "_ang_deg";
    var sb := if b.PhasorMag? then "_mag" else "_ang_deg";
    var da, db := NatToDecimal(a.index), NatToDecimal(b.index);
    assert KeyName(a) == "phasor_" + da + sa && KeyName(b) == "phasor_" + db + sb;
    DropPrefix("phasor_", da, sa);
    DropPrefix("phasor_", db, sb);
    DigitRunSplit(da, sa, db, sb);
    NatToDecimalInjective(a.index, b.index);
  }

  /** Two analog or two digital names agree only for the same index. */
  lemma ChannelNamesInjective(a: Key, b: Key)
    requires (a.Analog? && b.Analog?) || (a.Digital? && b.Digital?)
    ensures KeyName(a) == KeyName(b) ==> a == b
  {
    var n := if a.Analog? then 7 else 8;
    assert KeyName(a)[n..] == NatToDecimal(a.index);
    assert KeyName(b)[n..] == NatToDecimal(b.index);
    NatToDecimalInjective(a.index, b.index);
  }

  /** The first two characters tell the roles apart: `ph`, `an`, `di`, or a plain name's own. */
  lemma RoleNamesDiffer(a: Key, b: Key)
    requires WellFormed(a) && WellFormed(b)
    requires !a.Plain? || !b.Plain?
    requires a.Plain? || b.Plain? || (a.Analog? != b.Analog?) || (a.Digital? != b.Digital?)
    ensures KeyName(a) != KeyName(b)
  {
    var x, y := KeyName(a), KeyName(b);
    assert x[0] == (if a.Plain? then a.name[0] else if a.Analog? then 'a' else if a.Digital? then 'd' else 'p');
    assert y[0] == (if b.Plain? then b.name[0] else if b.Analog? then 'a' else if b.Digital? then 'd' else 'p');
    assert !a.Plain? ==> x[1] == (if a.Analog? then 'n' else if a.Digital? then 'i' else 'h');
    assert !b.Plain? ==> y[1] == (if b.Analog? then 'n' else if b.Digital? then 'i' else 'h');
  }

  /** Name, index and role determine each other: distinct well-formed keys have distinct names. */
  lemma KeyNameInjective(a: Key, b: Key)
    requires WellFormed(a) && WellFormed(b)
    ensures KeyName(a) == KeyName(b) ==> a == b
  {
    if (a.PhasorMag? || a.PhasorAng?) && (b.PhasorMag? || b.PhasorAng?) {
      PhasorNamesInjective(a, b);
    } else if (a.Analog? && b.Analog?) || (a.Digital? && b.Digital?) {
      ChannelNamesInjective(a, b);
    } else if !a.Plain? || !b.Plain? {
      RoleNamesDiffer(a, b);
    }
  }

  /** Number of phasor, analog and digital channels the table has room for. */
  const PhasorSlots: nat := 12
  const AnalogSlots: nat := 8
  const DigitalSlots: nat := 2

  const FixedColumns: seq<string> := ["time", "pmu_id", "stat_word", "freq", "rocof"]

  /** `TABLE_COLUMNS`: the column order of `phasor_data`, fixed by the table definition. */
  const TableColumns: seq<string> := [
      "time", "pmu_id", "stat_word", "freq", "rocof",
      "phasor_0_mag", "phasor_0_ang_deg", "phasor_1_mag", "phasor_1_ang_deg",
      "phasor_2_mag", "phasor_2_ang_deg", "phasor_3_mag", "phasor_3_ang_deg",
      "phasor_4_mag", "phasor_4_ang_deg", "phasor_5_mag", "phasor_5_ang_deg",
      "phasor_6_mag", "phasor_6_ang_deg", "phasor_7_mag", "phasor_7_ang_deg",
      "phasor_8_mag", "phasor_8_ang_deg", "phasor_9_mag", "phasor_9_ang_deg",
      "phasor_10_mag", "phasor_10_ang_deg", "phasor_11_mag", "phasor_11_ang_deg",
      "analog_0", "analog_1", "analog_2", "analog_3",
      "analog_4", "analog_5", "analog_6", "analog_7",
      "digital_0", "digital_1"
    ]

  /** `SQL_INSERT_QUERY`, built from the column list. */
  const InsertHead: string := "INSERT INTO phasor_data ("
  const InsertTail: string := ") VALUES %s"
  const SqlInsertQuery: string := InsertHead + Join(TableColumns, ", ") + InsertTail

  /** The role of the column at position `k`. */
  function ColumnKey(k: nat): Key
    requires k < |TableColumns|
  {
    if k < 5 then Plain(FixedColumns[k])
    else if k < 29 then (if (k - 5) % 2 == 0 then PhasorMag((k - 5) / 2) else PhasorAng((k - 5) / 2))
    else if k < 37 then Analog(k - 29)
    else Digital(k - 37)
  }

  lemma FixedColumnNames()
    ensures |TableColumns| == 5 + 2 * PhasorSlots + AnalogSlots + DigitalSlots
    ensures forall i :: 0 <= i < 5 ==> TableColumns[i] == FixedColumns[i] && PlainName(FixedColumns[i])
  {
    forall i | 0 <= i < 5
      ensures TableColumns[i] == FixedColumns[i] && PlainName(FixedColumns[i])
    {
      if i == 0 {} else if i == 1 {} else if i == 2 {} else if i == 3 {} else {}
    }
  }

  // One lemma per phasor: each compares two string literals of the column
  // list with two built names, and a single lemma over all twelve makes the
  // solver unfold the whole 39-entry list at once, which it cannot afford.
  lemma PhasorColumn0()
    ensures TableColumns[5] == KeyName(PhasorMag(0)) && TableColumns[6] == KeyName(PhasorAng(0))
  {
    assert TableColumns[5] == "phasor_0_mag" && KeyName(PhasorMag(0)) == "phasor_0_mag";
    assert TableColumns[6] == "phasor_0_ang_deg" && KeyName(PhasorAng(0)) == "phasor_0_ang_deg";
  }
  lemma PhasorColumn1()
    ensures TableColumns[7] == KeyName(PhasorMag(1)) && TableColumns[8] == KeyName(PhasorAng(1))
  {
    assert TableColumns[7] == "phasor_1_mag" && KeyName(PhasorMag(1)) == "phasor_1_mag";
    assert TableColumns[8] == "phasor_1_ang_deg" && KeyName(PhasorAng(1)) == "phasor_1_ang_deg";
  }
  lemma PhasorColumn2()
    ensures TableColumns[9] == KeyName(PhasorMag(2)) && TableColumns[10] == KeyName(PhasorAng(2))
  {
    assert TableColumns[9] == "phasor_2_mag" && KeyName(PhasorMag(2)) == "phasor_2_mag";
    assert TableColumns[10] == "phasor_2_ang_deg" && KeyName(PhasorAng(2)) == "phasor_2_ang_deg";
  }
  lemma PhasorColumn3()
    ensures TableColumns[11] == KeyName(PhasorMag(3)) && TableColumns[12] == KeyName(PhasorAng(3))
  {
    assert TableColumns[11] == "phasor_3_mag" && KeyName(PhasorMag(3)) == "phasor_3_mag";
    assert TableColumns[12] == "phasor_3_ang_deg" && KeyName(PhasorAng(3)) == "phasor_3_ang_deg";
  }
  lemma PhasorColumn4()
    ensures TableColumns[13] == KeyName(PhasorMag(4)) && TableColumns[14] == KeyName(PhasorAng(4))
  {
    assert TableColumns[13] == "phasor_4_mag" && KeyName(PhasorMag(4)) == "phasor_4_mag";
    assert TableColumns[14] == "phasor_4_ang_deg" && KeyName(PhasorAng(4)) == "phasor_4_ang_deg";
  }
  lemma PhasorColumn5()
    ensures TableColumns[15] == KeyName(PhasorMag(5)) && TableColumns[16] == KeyName(PhasorAng(5))
  {
    assert TableColumns[15] == "phasor_5_mag" && KeyName(PhasorMag(5)) == "phasor_5_mag";
    assert TableColumns[16] == "phasor_5_ang_deg" && KeyName(PhasorAng(5)) == "phasor_5_ang_deg";
  }
  lemma PhasorColumn6()
    ensures TableColumns[17] == KeyName(PhasorMag(6)) && TableColumns[18] == KeyName(PhasorAng(6))
  {
    assert TableColumns[17] == "phasor_6_mag" && KeyName(PhasorMag(6)) == "phasor_6_mag";
    assert TableColumns[18] == "phasor_6_ang_deg" && KeyName(PhasorAng(6)) == "phasor_6_ang_deg";
  }
  lemma PhasorColumn7()
    ensures TableColumns[19] == KeyName(PhasorMag(7)) && TableColumns[20] == KeyName(PhasorAng(7))
  {
    assert TableColumns[19] == "phasor_7_mag" && KeyName(PhasorMag(7)) == "phasor_7_mag";
    assert TableColumns[20] == "phasor_7_ang_deg" && KeyName(PhasorAng(7)) == "phasor_7_ang_deg";
  }
  lemma PhasorColumn8()
    ensures TableColumns[21] == KeyName(PhasorMag(8)) && TableColumns[22] == KeyName(PhasorAng(8))
  {
    assert TableColumns[21] == "phasor_8_mag" && KeyName(PhasorMag(8)) == "phasor_8_mag";
    assert TableColumns[22] == "phasor_8_ang_deg" && KeyName(PhasorAng(8)) == "phasor_8_ang_deg";
  }
  lemma PhasorColumn9()
    ensures TableColumns[23] == KeyName(PhasorMag(9)) && TableColumns[24] == KeyName(PhasorAng(9))
  {
    assert TableColumns[23] == "phasor_9_mag" && KeyName(PhasorMag(9)) == "phasor_9_mag";
    assert TableColumns[24] == "phasor_9_ang_deg" && KeyName(PhasorAng(9)) == "phasor_9_ang_deg";
  }
  lemma PhasorColumn10()
    ensures TableColumns[25] == KeyName(PhasorMag(10)) && TableColumns[26] == KeyName(PhasorAng(10))
  {
    assert TableColumns[25] == "phasor_10_mag" && KeyName(PhasorMag(10)) == "phasor_10_mag";
    assert TableColumns[26] == "phasor_10_ang_deg" && KeyName(PhasorAng(10)) == "phasor_10_ang_deg";
  }
  lemma PhasorColumn11()
    ensures TableColumns[27] == KeyName(PhasorMag(11)) && TableColumns[28] == KeyName(PhasorAng(11))
  {
    assert TableColumns[27] == "phasor_11_mag" && KeyName(PhasorMag(11)) == "phasor_11_mag";
    assert TableColumns[28] == "phasor_11_ang_deg" && KeyName(PhasorAng(11)) == "phasor_11_ang_deg";
  }

  lemma PhasorColumnsAt(i: nat)
    requires i < PhasorSlots
    ensures TableColumns[5 + 2 * i] == KeyName(PhasorMag(i)) && TableColumns[6 + 2 * i] == KeyName(PhasorAng(i))
  {
    if i == 0 { PhasorColumn0(); }
    else if i == 1 { PhasorColumn1(); }
    else if i == 2 { PhasorColumn2(); }
    else if i == 3 { PhasorColumn3(); }
    else if i == 4 { PhasorColumn4(); }
    else if i == 5 { PhasorColumn5(); }
    else if i == 6 { PhasorColumn6(); }
    else if i == 7 { PhasorColumn7(); }
    else if i == 8 { PhasorColumn8(); }
    else if i == 9 { PhasorColumn9(); }
    else if i == 10 { PhasorColumn10(); }
    else if i == 11 { PhasorColumn11(); }
  }

  lemma AnalogColumnsFrom0()
    ensures forall i :: 0 <= i < 4 ==> TableColumns[29 + i] == KeyName(Analog(i))
  {
    forall i | 0 <= i < 4
      ensures TableColumns[29 + i] == KeyName(Analog(i))
    {
      if i == 0 { assert TableColumns[29] == KeyName(Analog(0)); }
      else if i == 1 { assert TableColumns[30] == KeyName(Analog(1)); }
      else if i == 2 { assert TableColumns[31] == KeyName(Analog(2)); }
      else if i == 3 { assert TableColumns[32] == KeyName(Analog(3)); }
    }
  }
  lemma AnalogColumnsFrom4()
    ensures forall i :: 4 <= i < 8 ==> TableColumns[29 + i] == KeyName(Analog(i))
  {
    forall i | 4 <= i < 8
      ensures TableColumns[29 + i] == KeyName(Analog(i))
    {
      if i == 4 { assert TableColumns[33] == KeyName(Analog(4)); }
      else if i == 5 { assert TableColumns[34] == KeyName(Analog(5)); }
      else if i == 6 { assert TableColumns[35] == KeyName(Analog(6)); }
      else if i == 7 { assert TableColumns[36] == KeyName(Analog(7)); }
    }
  }

  lemma DigitalColumns()
    ensures forall i :: 0 <= i < 2 ==> TableColumns[37 + i] == KeyName(Digital(i))
  {
    assert TableColumns[37] == KeyName(Digital(0));
    assert TableColumns[38] == KeyName(Digital(1));
  }

  /** Whether position `k` of `TABLE_COLUMNS` holds the name of the well-formed key `ColumnKey(k)`. */
  predicate LaidOut(k: nat)
    requires k < |TableColumns|
  {
    WellFormed(ColumnKey(k)) && TableColumns[k] == KeyName(ColumnKey(k))
  }

  lemma FixedLaidOut(k: nat)
    requires k < 5
    ensures k < |TableColumns| && LaidOut(k)
  {
    FixedColumnNames();
  }

  lemma MagnitudeLaidOut(k: nat)
    requires 5 <= k < 29 && (k - 5) % 2 == 0
    ensures k < |TableColumns| && LaidOut(k)
  {
    var i := (k - 5) / 2;
    assert k == 5 + 2 * i;
    FixedColumnNames();
    PhasorColumnsAt(i);
    assert ColumnKey(k) == PhasorMag(i);
  }

  lemma AngleLaidOut(k: nat)
    requires 5 <= k < 29 && (k - 5) % 2 == 1
    ensures k < |TableColumns| && LaidOut(k)
  {
    var i := (k - 5) / 2;
    assert k == 6 + 2 * i;
    FixedColumnNames();
    PhasorColumnsAt(i);
    assert ColumnKey(k) == PhasorAng(i);
  }

  lemma PhasorsLaidOut(k: nat)
    requires 5 <= k < 29
    ensures k < |TableColumns| && LaidOut(k)
  {
    if (k - 5) % 2 == 0 {
      MagnitudeLaidOut(k);
    } else {
      AngleLaidOut(k);
    }
  }

  lemma ChannelsLaidOut(k: nat)
    requires 29 <= k < 39
    ensures k < |TableColumns| && LaidOut(k)
  {
    FixedColumnNames();
    if k < 37 {
      AnalogColumnsFrom0();
      AnalogColumnsFrom4();
      assert ColumnKey(k) == Analog(k - 29);
    } else {
      DigitalColumns();
      assert ColumnKey(k) == Digital(k - 37);
    }
  }

  /** Every column of `TABLE_COLUMNS` is the name of the well-formed key its position gives. */
  lemma TableColumnsLayout()
    ensures |TableColumns| == 39
    ensures forall k :: 0 <= k < |TableColumns| ==>
      WellFormed(ColumnKey(k)) && TableColumns[k] == KeyName(ColumnKey(k))
  {
    FixedColumnNames();
    forall k | 0 <= k < |TableColumns|
      ensures WellFormed(ColumnKey(k)) && TableColumns[k] == KeyName(ColumnKey(k))
    {
      if k < 5 {
        FixedLaidOut(k);
      } else if k < 29 {
        PhasorsLaidOut(k);
      } else {
        ChannelsLaidOut(k);
      }
    }
  }

  /** The position of a plain column name in `FixedColumns`. */
  function FixedColumnOf(name: string): Option<nat> {
    if name == "time" then Some(0)
    else if name == "pmu_id" then Some(1)
    else if name == "stat_word" then Some(2)
    else if name == "freq" then Some(3)
    else if name == "rocof" then Some(4)
    else None
  }

  /**
   * The column a key is stored in, or None when the table has no such
   * column: channels beyond the table's width have nowhere to go.
   */
  function ColumnOf(key: Key): Option<nat> {
    match key
    case Plain(n) => FixedColumnOf(n)
    case PhasorMag(i) => if i < PhasorSlots then Some(5 + 2 * i) else None
    case PhasorAng(i) => if i < PhasorSlots then Some(6 + 2 * i) else None
    case Analog(i) => if i < AnalogSlots then Some(29 + i) else None
    case Digital(i) => if i < DigitalSlots then Some(37 + i) else None
  }

  /** Where the channels of each role go. */
  lemma ChannelColumns(i: nat)
    ensures i < PhasorSlots ==> ColumnOf(PhasorMag(i)) == Some(5 + 2 * i) && ColumnOf(PhasorAng(i)) == Some(6 + 2 * i)
    ensures i < AnalogSlots ==> ColumnOf(Analog(i)) == Some(29 + i)
    ensures i < DigitalSlots ==> ColumnOf(Digital(i)) == Some(37 + i)
  {
  }

  lemma ColumnOfColumnKey(k: nat)
    requires k < |TableColumns|
    ensures ColumnOf(ColumnKey(k)) == Some(k)
  {
    if 5 <= k < 29 {
      var i := (k - 5) / 2;
      assert k == 5 + 2 * i || k == 6 + 2 * i;
    }
  }

  /** `ColumnKey` undoes `ColumnOf`: the position a key is given holds that key. */
  lemma ColumnKeyOfColumn(key: Key)
    requires WellFormed(key) && ColumnOf(key).Some?
    ensures ColumnOf(key).value < |TableColumns|
    ensures ColumnKey(ColumnOf(key).value) == key
  {
    var k := ColumnOf(key).value;
    assert |TableColumns| == 39;
    match key
    case Plain(n) =>
      assert FixedColumns[k] == n;
    case PhasorMag(i) =>
      assert (k - 5) % 2 == 0 && (k - 5) / 2 == i;
    case PhasorAng(i) =>
      assert (k - 5) % 2 == 1 && (k - 5) / 2 == i;
    case Analog(i) =>
    case Digital(i) =>
  }

  /**
   * `ColumnOf` inverts the column list: a key it places is the name at that
   * position, and a key it rejects names no column at all.
   */
  lemma ColumnOfFindsColumn(key: Key)
    requires WellFormed(key)
    ensures ColumnOf(key).Some? ==>
      ColumnOf(key).value < |TableColumns| && TableColumns[ColumnOf(key).value] == KeyName(key)
    ensures ColumnOf(key).None? ==> KeyName(key) !in TableColumns
  {
    TableColumnsLayout();
    if ColumnOf(key).Some? {
      ColumnKeyOfColumn(key);
    } else {
      forall k | 0 <= k < |TableColumns| ensures TableColumns[k] != KeyName(key) {
        KeyNameInjective(key, ColumnKey(k));
        ColumnOfColumnKey(k);
      }
    }
  }

  /** `TABLE_COLUMNS` names every column once. */
  lemma TableColumnsDistinct()
    ensures forall i, j :: 0 <= i < |TableColumns| && 0 <= j < |TableColumns| && TableColumns[i] == TableColumns[j] ==> i == j
  {
    TableColumnsLayout();
    forall i, j | 0 <= i < |TableColumns| && 0 <= j < |TableColumns|
      ensures TableColumns[i] == TableColumns[j] ==> i == j
    {
      KeyNameInjective(ColumnKey(i), ColumnKey(j));
      ColumnOfColumnKey(i);
      ColumnOfColumnKey(j);
    }
  }

  lemma KeyNameHasNoComma(key: Key)
    requires !key.Plain?
    ensures ',' !in KeyName(key)
    ensures KeyName(key)[0] != ' '
  {
    assert !IsDigit(',');
  }

  /** No column name holds a comma or starts with a blank. */
  lemma ColumnsSeparable()
    ensures forall k :: 0 <= k < |TableColumns| ==> ',' !in TableColumns[k]
    ensures forall k :: 0 <= k < |TableColumns| ==> |TableColumns[k]| == 0 || TableColumns[k][0] != ' '
  {
    TableColumnsLayout();
    FixedColumnNames();
    forall k | 0 <= k < |TableColumns|
      ensures ',' !in TableColumns[k]
      ensures |TableColumns[k]| == 0 || TableColumns[k][0] != ' '
    {
      if k < 5 {
        if k == 0 {} else if k == 1 {} else if k == 2 {} else if k == 3 {} else {}
      } else {
        KeyNameHasNoComma(ColumnKey(k));
      }
    }
  }

  /**
   * The column list of `SQL_INSERT_QUERY` is exactly `TABLE_COLUMNS`, in order:
   * reading back the text between the parentheses gives the list again.
   */
  lemma InsertQueryColumns()
    ensures SqlInsertQuery[..|InsertHead|] == InsertHead
    ensures |InsertHead| + |InsertTail| <= |SqlInsertQuery|
    ensures SqlInsertQuery[|SqlInsertQuery| - |InsertTail|..] == InsertTail
    ensures TrimEach(Split(SqlInsertQuery[|InsertHead|..|SqlInsertQuery| - |InsertTail|], ',')) == TableColumns
  {
    ColumnsSeparable();
    SliceBetween(InsertHead, Join(TableColumns, ", "), InsertTail);
    CommaSpaceJoinSplits(TableColumns);
  }
}

=== FILE: status.dfy ===
/**
 * `StatusManager` (status_manager.py): read-only health reports built from
 * what Redis says about the PMU streams. Every Redis answer and the local
 * clock are inputs; an ingestor is ONLINE when its stream's newest entry id,
 * read as a naive local time, is less than a minute behind the local clock.
 */
module Status {
  import opened Wrappers
  import opened Text
  import Discovery

  /** An ingestor whose newest entry is younger than this is online. */
  const OnlineWindowMs: int := 60000
  const NoIngestorsText: string := "Nenhum ingestor encontrado."
  const NoStreamsText: string := "Nenhum stream para monitorar."

  /** The `details` of an error report: the exception text, which the model does not compute. */
  datatype Detail =
    | RedisFailure(message: string)   // an exception raised by a Redis call
    | BadEntryId(id: string)          // int() rejected the part of the id before '-'
    | Unrepresentable(ms: int)        // fromtimestamp raised for the id's milliseconds

  /** What `XREVRANGE stream COUNT 1` answered. */
  datatype LastEntry = NoEntries | LastId(id: string) | LastFailed(message: string)

  /** One ingestor's entry in `get_all_ingestors_status`. */
  datatype IngestorReport =
    | StreamEmpty                      // "Stream Vazio"
    | Online(lastSeenMs: int)          // "ONLINE"; `last_seen`, a naive local time in milliseconds
    | Offline(lastSeenMs: int)         // "OFFLINE"
    | IngestorFailed(detail: Detail)   // "ERRO"

  /** Line 97: the milliseconds part of an entry id `"<ms>-<seq>"`, None when int() raises. */
  function EntryMs(id: string): Option<int> {
    ParseInt(FirstSegment(id, '-'))
  }

  /** The id Redis gives an entry carries its creation time, and reading it back recovers it. */
  lemma EntryMsOfId(ms: nat, sq: nat)
    ensures EntryMs(NatToDecimal(ms) + "-" + NatToDecimal(sq)) == Some(ms)
  {
    var a := NatToDecimal(ms);
    assert forall k :: 0 <= k < |a| ==> a[k] != '-';
    assert a + "-" + NatToDecimal(sq) == a + ['-'] + NatToDecimal(sq);
    FirstSegmentBefore(a, '-', NatToDecimal(sq));
    IntDecimalRoundTrip(ms);
  }

  /**
   * The host's clock as the status code sees it, in naive local time:
   * `nowLocalMs` is what `datetime.now()` reads, and `localOf(ms)` is what
   * `datetime.fromtimestamp` makes of an epoch instant, None when it raises
   * (a local year past 9999, or outside the platform's range). Local time is
   * not monotone in the instant: it jumps where the zone's offset changes.
   */
  datatype LocalClock = LocalClock(nowLocalMs: int, localOf: int -> Option<int>)

  /** 9999-12-31 23:59:59.999, the latest naive time a `datetime` holds, in milliseconds since 1970-01-01. */
  const LatestLocalMs: int := 253402300799999
  /** 0001-01-01 00:00:00, the earliest one. */
  const EarliestLocalMs: int := -62135596800000

  /** A zone whose offset from UTC never changes: `fromtimestamp` adds the offset, and raises outside years 1-9999. */
  function FixedZone(offsetMs: int): int -> Option<int> {
    x => if EarliestLocalMs <= x + offsetMs <= LatestLocalMs then Some(x + offsetMs) else None
  }

  /**
   * Lines 86-110 for one stream: the key and the report it files. A
   * successful check is filed under the PMU id (the last ':'-segment), a
   * failed one under the whole stream name.
   */
  function IngestorEntry(stream: string, last: LastEntry, clock: LocalClock): (e: (string, IngestorReport))
    ensures e.1 == StreamEmpty <==> last == NoEntries
    ensures e.1.IngestorFailed? <==>
      || last.LastFailed?
      || (last.LastId? && EntryMs(last.id).None?)
      || (last.LastId? && EntryMs(last.id).Some? && clock.localOf(EntryMs(last.id).value).None?)
    ensures e.1.IngestorFailed? ==> e.0 == stream
    ensures !e.1.IngestorFailed? ==> e.0 == LastSegment(stream, ':') && ':' !in e.0
    // the age is a difference of naive local times
    ensures e.1.Online? ==> clock.nowLocalMs - e.1.lastSeenMs < OnlineWindowMs
    ensures e.1.Offline? ==> clock.nowLocalMs - e.1.lastSeenMs >= OnlineWindowMs
    ensures e.1.Online? || e.1.Offline? ==>
      last.LastId? && EntryMs(last.id).Some? && clock.localOf(EntryMs(last.id).value) == Some(e.1.lastSeenMs)
  {
    var pmuId := LastSegment(stream, ':');
    match last
    case NoEntries => (pmuId, StreamEmpty)
    case LastFailed(message) => (stream, IngestorFailed(RedisFailure(message)))
    case LastId(id) =>
      match EntryMs(id)
      case None => (stream, IngestorFailed(BadEntryId(id)))
      case Some(ms) =>
        match clock.localOf(ms)
        case None => (stream, IngestorFailed(Unrepresentable(ms)))
        case Some(seen) =>
          if clock.nowLocalMs - seen < OnlineWindowMs then (pmuId, Online(seen)) else (pmuId, Offline(seen))
  }

  /**
   * A stream whose newest entry Redis stamped `ms` is online exactly while its
   * local time is less than a minute behind the local clock, and is filed as
   * an error under its full name when `fromtimestamp` cannot convert `ms`.
   */
  lemma OnlineIffRecent(stream: string, ms: nat, sq: nat, clock: LocalClock)
    ensures var e := IngestorEntry(stream, LastId(NatToDecimal(ms) + "-" + NatToDecimal(sq)), clock);
      && (clock.localOf(ms).None? ==> e == (stream, IngestorFailed(Unrepresentable(ms))))
      && (clock.localOf(ms).Some? ==>
            var seen := clock.localOf(ms).value;
            e.1 == (if clock.nowLocalMs - seen < OnlineWindowMs then Online(seen) else Offline(seen)))
  {
    EntryMsOfId(ms, sq);
  }

  /**
   * In a zone with a fixed offset the local times cancel out: an entry is
   * online exactly while it is less than a minute old, and an id whose local
   * time would fall past the year 9999 is an error filed under the stream.
   */
  lemma FixedZoneOnlineIffRecent(stream: string, ms: nat, sq: nat, nowMs: int, offsetMs: int)
    requires EarliestLocalMs <= ms + offsetMs
    ensures var e := IngestorEntry(stream, LastId(NatToDecimal(ms) + "-" + NatToDecimal(sq)),
                                   LocalClock(nowMs + offsetMs, FixedZone(offsetMs)));
      && (ms + offsetMs <= LatestLocalMs ==> (e.1.Online? <==> nowMs - ms < OnlineWindowMs) && !e.1.IngestorFailed?)
      && (LatestLocalMs < ms + offsetMs ==> e == (stream, IngestorFailed(Unrepresentable(ms))))
  {
    OnlineIffRecent(stream, ms, sq, LocalClock(nowMs + offsetMs, FixedZone(offsetMs)));
  }

  /** The hour a daylight-saving change moves the local clock by. */
  const ClockChangeMs: int := 3600000

  /**
   * A zone that moves its clocks forward by an hour at the instant
   * `switchMs`: before it the offset is `offsetMs`, from it on one hour more.
   */
  function SpringForward(offsetMs: int, switchMs: int): int -> Option<int> {
    x => var local := x + offsetMs + (if x < switchMs then 0 else ClockChangeMs);
      if EarliestLocalMs <= local <= LatestLocalMs then Some(local) else None
  }

  /**
   * Across a spring-forward change the naive local-time subtraction
   * overstates the age by an hour: an entry written before the change and
   * read after it is reported OFFLINE however recent it is.
   */
  lemma SpringForwardReportsOffline(stream: string, ms: nat, sq: nat, nowMs: int, offsetMs: int, switchMs: int)
    requires ms < switchMs <= nowMs && nowMs - ms < OnlineWindowMs
    requires EarliestLocalMs <= ms + offsetMs <= LatestLocalMs
    ensures IngestorEntry(stream, LastId(NatToDecimal(ms) + "-" + NatToDecimal(sq)),
                          LocalClock(nowMs + offsetMs + ClockChangeMs, SpringForward(offsetMs, switchMs))).1
      == Offline(ms + offsetMs)
  {
    OnlineIffRecent(stream, ms, sq, LocalClock(nowMs + offsetMs + ClockChangeMs, SpringForward(offsetMs, switchMs)));
  }

  /**
   * The dictionary a `for stream in stream_names` loop fills with
   * `status[key] = report`: a key written twice keeps the later report.
   */
  function Gather<V>(names: seq<string>, entry: string -> (string, V)): (m: map<string, V>)
    ensures m.Keys == set i | 0 <= i < |names| :: entry(names[i]).0
    decreases |names|
  {
    if |names| == 0 then map[]
    else
      var init := names[..|names| - 1];
      var e := entry(names[|names| - 1]);
      var m := Gather(init, entry);
      assert forall i :: 0 <= i < |init| ==> init[i] == names[i];
      m[e.0 := e.1]
  }

  /** Every key holds the report of the last stream filed under it. */
  lemma {:induction false} GatherLastWins<V>(names: seq<string>, entry: string -> (string, V), i: nat)
    requires i < |names|
    requires forall j :: i < j < |names| ==> entry(names[j]).0 != entry(names[i]).0
    ensures entry(names[i]).0 in Gather(names, entry)
    ensures Gather(names, entry)[entry(names[i]).0] == entry(names[i]).1
    decreases |names|
  {
    if i < |names| - 1 {
      var init := names[..|names| - 1];
      assert init[i] == names[i];
      assert forall j :: i < j < |init| ==> init[j] == names[j];
      GatherLastWins(init, entry, i);
    }
  }

  /** What `KEYS pmu_data_stream:*` answered: the names, or the text of the error it raised. */
  type KeysReply = Result<seq<string>, string>

  /** One `XINFO GROUPS` entry, reduced to the fields the report reads. */
  datatype GroupInfo = GroupInfo(name: string, lag: Option<int>, pending: nat, consumers: nat)

  /** What `XINFO GROUPS stream` answered. */
  datatype GroupsReply =
    | Groups(infos: seq<GroupInfo>)
    | GroupsRejected                  // redis.exceptions.ResponseError
    | GroupsFailed(message: string)   // any other exception

  /** Everything the status functions read from Redis at one instant. */
  datatype Snapshot = Snapshot(
    keys: KeysReply,
    lastEntry: string -> LastEntry,
    groups: string -> GroupsReply,
    clock: LocalClock)

  /** `get_all_ingestors_status`. */
  datatype IngestorsView =
    | IngestorsByKey(reports: map<string, IngestorReport>)
    | NoIngestors                      // {"status": "Nenhum ingestor encontrado."}
    | IngestorsUnavailable(detail: Detail)

  /** Lines 70-116; `redis` is None when the constructor could not connect. */
  function AllIngestorsStatus(redis: Option<Snapshot>): (v: IngestorsView)
    ensures redis.None? ==> v == IngestorsByKey(map[])
    ensures v == NoIngestors <==> redis.Some? && redis.value.keys == Success([])
    ensures v.IngestorsUnavailable? <==> redis.Some? && redis.value.keys.Failure?
    ensures v.IngestorsByKey? && redis.Some? ==>
      v.reports.Keys == set i | 0 <= i < |redis.value.keys.value| ::
        IngestorEntry(redis.value.keys.value[i], redis.value.lastEntry(redis.value.keys.value[i]), redis.value.clock).0
  {
    match redis
    case None => IngestorsByKey(map[])
    case Some(snap) =>
      match snap.keys
      case Failure(message) => IngestorsUnavailable(RedisFailure(message))
      case Success(names) =>
        if |names| == 0 then NoIngestors
        else IngestorsByKey(Gather(names, s => IngestorEntry(s, snap.lastEntry(s), snap.clock)))
  }

  /** A stream that fails its check does not stop the others: each later stream still files its report. */
  lemma FailureDoesNotStopOthers(snap: Snapshot, i: nat)
    requires snap.keys.Success? && i < |snap.keys.value|
    requires forall j :: i < j < |snap.keys.value| ==>
      IngestorEntry(snap.keys.value[j], snap.lastEntry(snap.keys.value[j]), snap.clock).0
      != IngestorEntry(snap.keys.value[i], snap.lastEntry(snap.keys.value[i]), snap.clock).0
    ensures AllIngestorsStatus(Some(snap)).IngestorsByKey?
    ensures var s := snap.keys.value[i];
      var e := IngestorEntry(s, snap.lastEntry(s), snap.clock);
      AllIngestorsStatus(Some(snap)).reports[e.0] == e.1
  {
    var entry := s => IngestorEntry(s, snap.lastEntry(s), snap.clock);
    GatherLastWins(snap.keys.value, entry, i);
  }

  /** The persistor group's report for one stream (lines 137-157). */
  datatype GroupReport =
    | Monitored(lag: Option<int>, pending: nat, consumers: nat)   // "MONITORADO"
    | Waiting                          // no group named persistor_group: "AGUARDANDO"
    | NoGroup                          // "SEM GRUPO"
    | GroupFailed(detail: Detail)      // "ERRO"

  /** Index of the first group called `name`, or `|infos|`. */
  function FindGroup(infos: seq<GroupInfo>, name: string): (k: nat)
    ensures k <= |infos|
    ensures forall i :: 0 <= i < k ==> infos[i].name != name
    ensures k < |infos| ==> infos[k].name == name
  {
    if |infos| == 0 then 0
    else if infos[0].name == name then 0
    else 1 + FindGroup(infos[1..], name)
  }

  /** Whether `k` is the index of the first group named persistor_group. */
  predicate FirstNamed(infos: seq<GroupInfo>, k: int) {
    && 0 <= k < |infos|
    && infos[k].name == Discovery.PersistorGroupName
    && forall i :: 0 <= i < k ==> infos[i].name != Discovery.PersistorGroupName
  }

  /** Lines 138-157: the first group named persistor_group is reported with its counters copied through. */
  function GroupEntry(reply: GroupsReply): (r: GroupReport)
    ensures r.Monitored? <==> reply.Groups? && exists g :: g in reply.infos && g.name == Discovery.PersistorGroupName
    ensures r.Monitored? ==>
      exists k :: FirstNamed(reply.infos, k) && r == Monitored(reply.infos[k].lag, reply.infos[k].pending, reply.infos[k].consumers)
    ensures r == Waiting <==> reply.Groups? && forall g :: g in reply.infos ==> g.name != Discovery.PersistorGroupName
    ensures r == NoGroup <==> reply == GroupsRejected
    ensures r.GroupFailed? <==> reply.GroupsFailed?
  {
    match reply
    case GroupsRejected => NoGroup
    case GroupsFailed(message) => GroupFailed(RedisFailure(message))
    case Groups(infos) =>
      var k := FindGroup(infos, Discovery.PersistorGroupName);
      if k < |infos| then
        assert infos[k] in infos;
        Monitored(infos[k].lag, infos[k].pending, infos[k].consumers)
      else
        assert forall g :: g in infos ==> g.name != Discovery.PersistorGroupName by {
          forall g | g in infos ensures g.name != Discovery.PersistorGroupName {
            var i :| 0 <= i < |infos| && infos[i] == g;
          }
        }
        Waiting
  }

  /** `get_persistor_status`. */
  datatype PersistorView =
    | GroupsByStream(reports: map<string, GroupReport>)
    | NoStreams                        // {"status": "Nenhum stream para monitorar."}
    | GroupsUnavailable(detail: Detail)

  /** Lines 118-163: one report per stream, filed under the full stream name. */
  function PersistorStatus(redis: Option<Snapshot>): (v: PersistorView)
    ensures redis.None? ==> v == GroupsByStream(map[])
    ensures v == NoStreams <==> redis.Some? && redis.value.keys == Success([])
    ensures v.GroupsUnavailable? <==> redis.Some? && redis.value.keys.Failure?
    ensures v.GroupsByStream? && redis.Some? ==>
      && v.reports.Keys == (set i | 0 <= i < |redis.value.keys.value| :: redis.value.keys.value[i])
      && forall s :: s in v.reports ==> v.reports[s] == GroupEntry(redis.value.groups(s))
  {
    match redis
    case None => GroupsByStream(map[])
    case Some(snap) =>
      match snap.keys
      case Failure(message) => GroupsUnavailable(RedisFailure(message))
      case Success(names) =>
        if |names| == 0 then NoStreams
        else
          var m := Gather(names, s => (s, GroupEntry(snap.groups(s))));
          assert forall s :: s in m ==> m[s] == GroupEntry(snap.groups(s)) by {
            forall s | s in m ensures m[s] == GroupEntry(snap.groups(s)) {
              GatherOwnKey(names, snap.groups, s);
            }
          }
          GroupsByStream(m)
  }

  /** When each stream files under its own name, every entry is that stream's report. */
  lemma {:induction false} GatherOwnKey(names: seq<string>, groups: string -> GroupsReply, s: string)
    requires s in Gather(names, t => (t, GroupEntry(groups(t))))
    ensures Gather(names, t => (t, GroupEntry(groups(t))))[s] == GroupEntry(groups(s))
    decreases |names|
  {
    var entry := t => (t, GroupEntry(groups(t)));
    if names[|names| - 1] != s {
      GatherOwnKey(names[..|names| - 1], groups, s);
    }
  }

  /** `get_system_health`. */
  datatype Health =
    | Down                                                  // {"redis_status": "DOWN", "persistor_status": "UNKNOWN"}
    | Up(persistor: PersistorView, ingestors: IngestorsView)  // "redis_status": "UP" with both reports

  /** Lines 48-68: without a client nothing is asked and there is no ingestor entry at all. */
  function SystemHealth(redis: Option<Snapshot>): (h: Health)
    ensures h.Down? <==> redis.None?
    ensures h.Up? ==> h.persistor == PersistorStatus(redis) && h.ingestors == AllIngestorsStatus(redis)
  {
    if redis.None? then Down
    else Up(PersistorStatus(redis), AllIngestorsStatus(redis))
  }
}

=== FILE: text.dfy ===
/**
 * The handful of Python string operations the pipeline relies on:
 * `str(int)`, `int(str)`, `str.split(sep)` and `sep.join(parts)`.
 */
module Text {
  import opened Wrappers

  predicate IsDigit(c: char) {
    '0' <= c <= '9'
  }

  predicate AllDigits(s: string) {
    forall i :: 0 <= i < |s| ==> IsDigit(s[i])
  }

  function DigitValue(c: char): nat
    requires IsDigit(c)
  {
    c as int - '0' as int
  }

  function DigitChar(d: nat): (c: char)
    requires d < 10
    ensures IsDigit(c) && DigitValue(c) == d
  {
    ('0' as int + d) as char
  }

  /** Decimal text of a natural number, most significant digit first, as Python's `str` writes it. */
  function NatToDecimal(n: nat): (s: string)
    ensures 1 <= |s|
    ensures AllDigits(s)
    decreases n
  {
    if n < 10 then [DigitChar(n)] else NatToDecimal(n / 10) + [DigitChar(n % 10)]
  }

  /** Python's `str(i)` (and an f-string `{i}`) for an integer of either sign. */
  function IntToDecimal(i: int): string {
    if i < 0 then "-" + NatToDecimal(-i) else NatToDecimal(i)
  }

  /** The value of a string of decimal digits (leading zeros allowed). */
  function DigitsValue(s: string): nat
    requires AllDigits(s)
    decreases |s|
  {
    if |s| == 0 then 0 else 10 * DigitsValue(s[..|s| - 1]) + DigitValue(s[|s| - 1])
  }

  /**
   * Python's `int(s)` on text: an optional sign followed by at least one
   * decimal digit; anything else raises ValueError, modelled as None.
   */
  function ParseInt(s: string): Option<int> {
    if 0 < |s| && (s[0] == '-' || s[0] == '+') then
      if 1 < |s| && AllDigits(s[1..]) then
        Some(if s[0] == '-' then -(DigitsValue(s[1..]) as int) else DigitsValue(s[1..]))
      else None
    else if 0 < |s| && AllDigits(s) then Some(DigitsValue(s))
    else None
  }

  lemma {:induction false} DecimalDigitsValue(n: nat)
    ensures DigitsValue(NatToDecimal(n)) == n
    decreases n
  {
    if 10 <= n {
      var s := NatToDecimal(n);
      DecimalDigitsValue(n / 10);
      assert s[..|s| - 1] == NatToDecimal(n / 10);
    }
  }

  lemma NatDecimalParses(n: nat)
    ensures ParseInt(NatToDecimal(n)) == Some(n)
  {
    var s := NatToDecimal(n);
    assert IsDigit(s[0]);
    DecimalDigitsValue(n);
  }

  lemma NegativeDecimalParses(n: nat)
    ensures ParseInt("-" + NatToDecimal(n)) == Some(-(n as int))
  {
    var s := "-" + NatToDecimal(n);
    assert s[0] == '-' && s[1..] == NatToDecimal(n);
    DecimalDigitsValue(n);
  }

  /** Parsing the decimal text of any integer gives the integer back. */
  lemma IntDecimalRoundTrip(i: int)
    ensures ParseInt(IntToDecimal(i)) == Some(i)
  {
    if i < 0 {
      NegativeDecimalParses(-i);
    } else {
      NatDecimalParses(i);
    }
  }

  /** Distinct numbers have distinct decimal texts. */
  lemma NatToDecimalInjective(a: nat, b: nat)
    ensures NatToDecimal(a) == NatToDecimal(b) ==> a == b
  {
    DecimalDigitsValue(a);
    DecimalDigitsValue(b);
  }

  /**
   * When a digit string followed by text that does not start with a digit
   * equals another such pair, the digit strings and the texts agree.
   */
  lemma DigitRunSplit(a: string, s: string, b: string, t: string)
    requires AllDigits(a) && AllDigits(b)
    requires |s| == 0 || !IsDigit(s[0])
    requires |t| == 0 || !IsDigit(t[0])
    ensures a + s == b + t ==> a == b && s == t
  {
    if a + s == b + t {
      if 0 < |s| {
        assert (a + s)[|a|] == s[0];
      }
      if 0 < |t| {
        assert (b + t)[|b|] == t[0];
      }
      assert forall i :: 0 <= i < |a| ==> (a + s)[i] == a[i];
      assert forall i :: 0 <= i < |b| ==> (b + t)[i] == b[i];
      assert |a| == |b|;
      assert a == (a + s)[..|a|];
      assert b == (b + t)[..|b|];
      assert s == (a + s)[|a|..];
      assert t == (b + t)[|b|..];
    }
  }

  /** Position of the first occurrence of `c` in `s`. */
  function IndexOf(s: string, c: char): (k: nat)
    requires c in s
    ensures k < |s| && s[k] == c
    ensures c !in s[..k]
  {
    if s[0] == c then 0
    else
      var k := 1 + IndexOf(s[1..], c);
      assert s[..k] == [s[0]] + s[1..][..k - 1];
      k
  }

  /** Python's `sep.join(parts)`. */
  function Join(parts: seq<string>, sep: string): string {
    if |parts| == 0 then ""
    else if |parts| == 1 then parts[0]
    else parts[0] + sep + Join(parts[1..], sep)
  }

  /**
   * Python's `s.split(c)` for a one-character separator: never empty, no
   * piece contains the separator, and joining the pieces rebuilds `s`.
   */
  function Split(s: string, c: char): (parts: seq<string>)
    ensures 1 <= |parts|
    ensures forall i :: 0 <= i < |parts| ==> c !in parts[i]
    ensures Join(parts, [c]) == s
    decreases |s|
  {
    if c !in s then [s]
    else
      var k := IndexOf(s, c);
      var rest := Split(s[k + 1..], c);
      assert s == s[..k] + [c] + s[k + 1..];
      [s[..k]] + rest
  }

  /** `s.split(c)[0]`. */
  function FirstSegment(s: string, c: char): string {
    Split(s, c)[0]
  }

  /** `s.split(c)[-1]` (Python's split never returns an empty list). */
  function LastSegment(s: string, c: char): string {
    var parts := Split(s, c);
    parts[|parts| - 1]
  }

  lemma {:induction false} IndexOfFirst(a: string, c: char, b: string)
    requires c !in a
    ensures c in a + [c] + b
    ensures IndexOf(a + [c] + b, c) == |a|
    decreases |a|
  {
    var s := a + [c] + b;
    assert s[|a|] == c;
    if |a| > 0 {
      assert s[1..] == a[1..] + [c] + b;
      IndexOfFirst(a[1..], c, b);
    }
  }

  lemma {:induction false} IndexOfWithin(a: string, c: char, b: string)
    requires c in a
    ensures IndexOf(a + b, c) == IndexOf(a, c)
    decreases |a|
  {
    if a[0] != c {
      assert (a + b)[1..] == a[1..] + b;
      IndexOfWithin(a[1..], c, b);
    }
  }

  /** Splitting at the first separator: the text before it, then the pieces of the rest. */
  lemma SplitAtFirst(a: string, c: char, b: string)
    requires c !in a
    ensures Split(a + [c] + b, c) == [a] + Split(b, c)
  {
    var s := a + [c] + b;
    IndexOfFirst(a, c, b);
    assert s[..|a|] == a;
    assert s[|a| + 1..] == b;
  }

  /** Splitting a join gives the pieces back, provided no piece holds the separator. */
  lemma {:induction false} SplitOfJoin(parts: seq<string>, c: char)
    requires 1 <= |parts|
    requires forall i :: 0 <= i < |parts| ==> c !in parts[i]
    ensures Split(Join(parts, [c]), c) == parts
    decreases |parts|
  {
    if 1 < |parts| {
      var rest := Join(parts[1..], [c]);
      assert Join(parts, [c]) == parts[0] + [c] + rest;
      SplitAtFirst(parts[0], c, rest);
      SplitOfJoin(parts[1..], c);
      assert parts == [parts[0]] + parts[1..];
    }
  }

  /** Whatever precedes the last separator, the last segment is what follows it. */
  lemma {:induction false} LastSegmentAfter(a: string, c: char, t: string)
    requires c !in t
    ensures LastSegment(a + [c] + t, c) == t
    decreases |a|
  {
    var s := a + [c] + t;
    IndexOfFirst([], c, t);
    assert [] + [c] + t == [c] + t;
    if c !in a {
      IndexOfFirst(a, c, t);
      assert s[|a| + 1..] == t;
    } else {
      var k := IndexOf(a, c);
      IndexOfWithin(a, c, [c] + t);
      assert s == a + ([c] + t);
      assert s[k + 1..] == a[k + 1..] + [c] + t;
      LastSegmentAfter(a[k + 1..], c, t);
    }
  }

  /** Dropping a known prefix leaves the rest. */
  lemma DropPrefix(p: string, t: string, u: string)
    ensures (p + t + u)[|p|..] == t + u
  {
    assert p + t + u == p + (t + u);
  }

  /** The first segment is everything before the first separator. */
  lemma FirstSegmentBefore(a: string, c: char, t: string)
    requires c !in a
    ensures FirstSegment(a + [c] + t, c) == a
  {
    IndexOfFirst(a, c, t);
    assert (a + [c] + t)[..|a|] == a;
  }

  /** One leading blank removed, as a reader of a `", "`-separated list does. */
  function TrimLeadingSpace(s: string): string {
    if 0 < |s| && s[0] == ' ' then s[1..] else s
  }

  function TrimEach(parts: seq<string>): (r: seq<string>)
    ensures |r| == |parts|
    ensures forall i :: 0 <= i < |parts| ==> r[i] == TrimLeadingSpace(parts[i])
  {
    seq(|parts|, i requires 0 <= i < |parts| => TrimLeadingSpace(parts[i]))
  }

  function Spaced(parts: seq<string>): (r: seq<string>)
    ensures |r| == |parts|
    ensures forall i :: 0 <= i < |parts| ==> r[i] == " " + parts[i]
  {
    seq(|parts|, i requires 0 <= i < |parts| => " " + parts[i])
  }

  lemma {:induction false} JoinSpaced(parts: seq<string>)
    requires 1 <= |parts|
    ensures Join(Spaced(parts), ",") == " " + Join(parts, ", ")
    decreases |parts|
  {
    if 1 < |parts| {
      JoinSpaced(parts[1..]);
      assert Spaced(parts)[1..] == Spaced(parts[1..]);
    }
  }

  lemma JoinCommaSpace(parts: seq<string>)
    requires 1 <= |parts|
    ensures Join(parts, ", ") == Join([parts[0]] + Spaced(parts[1..]), ",")
  {
    var pieces := [parts[0]] + Spaced(parts[1..]);
    if |parts| == 1 {
      assert pieces == [parts[0]];
    } else {
      JoinCommaSpaceLong(parts, pieces);
    }
  }

  lemma JoinCommaSpaceLong(parts: seq<string>, pieces: seq<string>)
    requires 2 <= |parts|
    requires pieces == [parts[0]] + Spaced(parts[1..])
    ensures Join(parts, ", ") == Join(pieces, ",")
  {
    var tail := Join(parts[1..], ", ");
    assert pieces[1..] == Spaced(parts[1..]);
    JoinSpaced(parts[1..]);
    assert Join(pieces, ",") == parts[0] + "," + (" " + tail);
    assert parts[0] + "," + (" " + tail) == parts[0] + ", " + tail;
  }

  /** The pieces of a `", "` join, seen as a `","` join: no piece holds a comma. */
  lemma SpacedPiecesHaveNoComma(parts: seq<string>, pieces: seq<string>)
    requires 1 <= |parts|
    requires forall i :: 0 <= i < |parts| ==> ',' !in parts[i]
    requires pieces == [parts[0]] + Spaced(parts[1..])
    ensures forall i :: 0 <= i < |pieces| ==> ',' !in pieces[i]
  {
    forall i | 0 <= i < |pieces|
      ensures ',' !in pieces[i]
    {
      if 0 < i {
        assert pieces[i] == " " + parts[i];
      }
    }
  }

  /** Trimming the one leading blank off each piece gives the items back. */
  lemma TrimSpacedPieces(parts: seq<string>, pieces: seq<string>)
    requires 1 <= |parts|
    requires forall i :: 0 <= i < |parts| ==> |parts[i]| == 0 || parts[i][0] != ' '
    requires pieces == [parts[0]] + Spaced(parts[1..])
    ensures TrimEach(pieces) == parts
  {
    var trimmed := TrimEach(pieces);
    forall i | 0 <= i < |parts|
      ensures trimmed[i] == parts[i]
    {
      if 0 < i {
        assert pieces[i] == " " + parts[i];
        assert pieces[i][1..] == parts[i];
      }
    }
  }

  /**
   * A list joined with `", "` splits back on `','` into the original items,
   * each after the first carrying the one blank the separator added.
   */
  lemma CommaSpaceJoinSplits(parts: seq<string>)
    requires 1 <= |parts|
    requires forall i :: 0 <= i < |parts| ==> ',' !in parts[i]
    requires forall i :: 0 <= i < |parts| ==> |parts[i]| == 0 || parts[i][0] != ' '
    ensures TrimEach(Split(Join(parts, ", "), ',')) == parts
  {
    var pieces := [parts[0]] + Spaced(parts[1..]);
    JoinCommaSpace(parts);
    SpacedPiecesHaveNoComma(parts, pieces);
    SplitOfJoin(pieces, ',');
    TrimSpacedPieces(parts, pieces);
  }

  lemma SliceBetween(head: string, middle: string, tail: string)
    ensures (head + middle + tail)[..|head|] == head
    ensures (head + middle + tail)[|head|..|head + middle + tail| - |tail|] == middle
    ensures (head + middle + tail)[|head + middle + tail| - |tail|..] == tail
  {
  }
}

=== FILE: wrappers.dfy ===
/** Optional values and results shared by the model. */
module Wrappers {

  /** An optional value: Python's `None` versus a present value. */
  datatype Option<+T> = None | Some(value: T)

  /** Either a computed value or the error that a Python function raises. */
  datatype Result<+T, +E> = Success(value: T) | Failure(error: E)
}
